=== FILE: README.md ===
# sgback core in Dafny

This project models the request handlers of the sgback retail ERP backend:
- the Flask hook that turns a bearer token into a request identity;
- the `auth_required` gate and the login decision tree;
- the ERP routes: product registration and lookup, goods receiving, the two Admin/Gerente-gated routes, and sale closing at the point of sale (PDV);
- the Firestore helpers those routes call;
- the payment-gateway client.

Each handler is a pure function from a `Store` to a new `Store` and a response. `Store` is an immutable value holding the products, sales and users collections, the audit trail, and whether a database handle exists.

Every outcome the code does not decide itself is a parameter:
- the payment gateway's HTTP answer;
- the fiscal issuer's answer;
- the JWT decoder's verdict;
- the password-hash check;
- the wall clock and the random sale-id suffix;
- which Firestore calls raise (`Faults`).

Python's value semantics are written out in `PyValues`. This covers truthiness, `dict.get` with and without a default, `+` and `-` (a `TypeError` on mixed operands is `None`), `max(0, x)`, and `str.split(' ')`.

Modules:
- `PyValues` (py_values.dfy): JSON-like values, dict access, arithmetic, splitting.
- `FirestoreService` (firestore_service.dfy): the store, merge-upsert of products, lookups, the audit sink.
- `IntegrationsService` (integrations_service.dfy): the payment call and the fiscal-issuer oracle.
- `AuthRoutes` (auth_routes.dfy): the authentication gate and login.
- `App` (app.dfy): bearer-token extraction and the per-request identity.
- `SaleIds` (sale_ids.dfy): `VENDA_<YYYYMMDDHHMMSS>_<nnn>` identifiers and their parser.
- `ErpRoutes` (erp_routes.dfy): the ERP handlers.
- `CheckoutProperties` (checkout_properties.dfy): cross-step properties of sale closing.
- `StockProperties` (stock_properties.dfy): cross-step properties of receiving and registration.

## Model

| member | source | states |
|---|---|---|
| PyValues.Add | api/routes/erp_routes.py:105 | `+` is defined exactly when both operands are numbers (bool counts as int) or both strings; it gives the numeric sum or the concatenation, otherwise TypeError |
| PyValues.Sub | api/routes/erp_routes.py:257 | `-` is defined exactly when both operands are numbers, and is then their difference |
| PyValues.FloorAtZero | api/routes/erp_routes.py:257 | `max(0, x)` is a natural number, at least `x`, and is either 0 or `x` |
| PyValues.Split | api/app.py:39 | `str.split(' ')` yields at least one field and no field contains the separator |
| PyValues.SplitJoin | api/app.py:39 | joining the fields of `split(sep)` with `sep` gives back the original string |
| PyValues.SplitAfterPrefix | api/app.py:38-39 | after a separator-free prefix and a separator, field 1 of the split is the first field of the rest |
| PyValues.SplitFirstField | api/app.py:39 | field 0 is a prefix of the string, ending at the end or at a separator |
| FirestoreService.LogAudit | api/services/firestore_service.py:54-70 | an audit call appends exactly one record iff a handle exists and the write does not raise; otherwise nothing changes; no collection other than the trail changes |
| FirestoreService.SaveOrUpdateProduct | api/services/firestore_service.py:77-99 | succeeds iff connected, the barcode is truthy and names a document, and the write does not raise; on failure nothing changes; on success only that product changes: old fields merged under the payload, with `last_updated` set to the server timestamp |
| FirestoreService.FindProduct | api/services/firestore_service.py:102-119 | returns a document iff connected, the barcode names a stored document, and the read does not raise; it then returns that stored document |
| FirestoreService.FindUser | api/services/firestore_service.py:129-147 | the same for users, keyed by matrícula |
| FirestoreService.SaveThenFind | api/services/firestore_service.py:77-119 | after a successful save, a lookup of the same barcode returns the merged document |
| FirestoreService.SaveIdempotent | api/services/firestore_service.py:91-95 | saving the same payload twice leaves the same store and result as saving it once |
| FirestoreService.SaveKeepsStamped | api/services/firestore_service.py:91-95 | if every stored product has `last_updated` equal to the server-timestamp marker, it still does after any save |
| IntegrationsService.ProcessPayment | api/services/integrations_service.py:14-35 | approved iff the gateway answered a non-4xx/5xx status with body status "APROVADO"; the transaction id is the body's `id`; a connection failure or an HTTP error status is a denial carrying that cause |
| AuthRoutes.AuthRequired | api/routes/auth_routes.py:14-28 | the handler runs iff the identity's matrícula is truthy; otherwise 401 with "Autenticação necessária. Matrícula ausente no Header." and the store is untouched |
| AuthRoutes.Login | api/routes/auth_routes.py:31-78 | 400 iff matrícula or senha is falsy; an unknown user or a rejected password gives 401 "Matrícula ou senha inválida."; a raising hash check gives 500 "Erro interno do servidor."; success iff the user exists with a truthy hash that the checker accepts; on success, name and access default to the matrícula and "Operador"; when the audit sink works, every path writes exactly one audit record, under "DESCONHECIDO" iff the request was incomplete (or the matrícula is literally that) |
| AuthRoutes.UnknownUserLooksLikeWrongPassword | api/routes/auth_routes.py:45-75 | an unknown matrícula and a wrong password give identical responses: 401, "Matrícula ou senha inválida." |
| AuthRoutes.MissingHashIsServerError | api/routes/auth_routes.py:52-56 | a user without a truthy `senha_hash` gets 500 whatever the hash checker would say |
| App.BearerToken | api/app.py:35-39 | a token is extracted iff the header starts with "Bearer "; the token never contains a space |
| App.BearerTokenShape | api/app.py:38-39 | the token is the text after "Bearer " up to the next space or the end |
| App.BeforeRequest | api/app.py:27-61 | the name is never set; an identity is set only after a successful decode of a non-empty token, and then matrícula and permission are the payload's `sub` and `permissao` |
| App.NoBearerNoIdentity | api/app.py:38-46 | without a "Bearer " header the request is anonymous |
| SaleIds.SaleId | api/routes/erp_routes.py:232 | a sale id is 24 characters: "VENDA_", 14 digits, '_', 3 digits |
| SaleIds.ParseDecimalInverse | api/routes/erp_routes.py:232 | parsing a zero-padded decimal gives back its number |
| SaleIds.SaleIdRoundTrip | api/routes/erp_routes.py:232 | parsing a sale id gives back the clock reading and the suffix it was built from |
| SaleIds.SaleIdInjective | api/routes/erp_routes.py:232 | two sales share an id only if both the second and the random suffix coincide |
| ErpRoutes.RegisterProductAsWritten | api/routes/erp_routes.py:26-49 | as written: 400 iff the barcode or name is falsy, with no product changed; 200 iff the save of the data with `cadastrado_por` set to the actor succeeds, and then the products are exactly what that save leaves, the product's `cadastrado_por` being the actor; the action reported is "Atualização" or "Cadastro"; a failed save changes no product; sales and users never change |
| ErpRoutes.RegisterProduct | api/routes/erp_routes.py:26-49 | 400 iff the barcode or name is falsy, with no product changed; 200 iff the save of the data with `cadastrado_por` set to the actor succeeds, and then the products are exactly what that save leaves, the product's `cadastrado_por` being the actor; the action is "Atualização" iff the product existed before the save; a failed save changes no product |
| ErpRoutes.LookupProduct | api/routes/erp_routes.py:52-66 | 400 iff the barcode is empty; 200 with the stored document iff it exists and is non-empty; otherwise 404 |
| ErpRoutes.ListUsers | api/routes/erp_routes.py:133-152 | granted iff the permission is Admin or Gerente; a grant changes nothing; a refusal appends the "RETA / Acesso Negado" record |
| ErpRoutes.Kpis | api/routes/erp_routes.py:159-166 | granted iff the permission is Admin or Gerente |
| ErpRoutes.ReceiveItem | api/routes/erp_routes.py:90-114 | an item without a truthy barcode is skipped; otherwise it raises iff the `+` is undefined, and raising changes nothing; only the item's own product can change or appear |
| ErpRoutes.ReceiveItemWrites | api/routes/erp_routes.py:99-111 | a received product's stock becomes found stock (0 if absent) + quantity, unless the item carries its own; `custoLiquido` becomes the item's `custo_unitario` unless it carries its own; `last_updated` is stamped |
| ErpRoutes.ReceiveItemsIgnoresAudit | api/routes/erp_routes.py:88-114 | the receiving loop's outcome does not depend on the audit trail |
| ErpRoutes.ReceiveItems | api/routes/erp_routes.py:88-114 | the loop can raise only TypeError; products no item names keep their documents; only named products can appear |
| ErpRoutes.ConfirmReceipt | api/routes/erp_routes.py:73-126 | 400 iff `nf_numero` is falsy or there are no items; 200 iff valid and (no handle, or the loop does not raise); otherwise 500 from an escaping TypeError; on 200 the trail grows by "Confirmação NF" then "Título Gerado"; on 500 only the first; with a handle, the products are exactly those the item loop leaves; without one, no product changes |
| ErpRoutes.SellItem | api/routes/erp_routes.py:249-263 | an unknown product writes nothing; for a known one it raises iff `old - quantidade` is undefined, and otherwise the written stock is `max(0, old - qty)` or the item's own value; one goods-exit record per item not raising; other products unchanged |
| ErpRoutes.SellItems | api/routes/erp_routes.py:249-263 | the loop's trail is one exit record per item in cart order; products no item names are unchanged; stock stays a non-negative integer |
| ErpRoutes.IssueFiscal | api/routes/erp_routes.py:266-277 | authorised: FINALIZADA with the key; not authorised: CONTINGÊNCIA; an exception leaves the sales untouched; other sales never change |
| ErpRoutes.RecordAndFulfil | api/routes/erp_routes.py:244-277 | no handle or a failed sale write means nothing changes and an exception; otherwise only the new sale is added; the audit trail only grows |
| ErpRoutes.CloseSale | api/routes/erp_routes.py:206-289 | 400 iff no items or a falsy total; 402 iff valid and the payment is denied, and then nothing changes; for a valid approved cart, 200 iff the `try` block raises nothing (the store is then what it left), otherwise 500 carrying that exception, with the "PDV / Erro Crítico" record appended last; 200/500 carry the id built from clock and suffix; other sales and users unchanged; the audit trail only grows |
| ErpRoutes.CloseSaleValidation | api/routes/erp_routes.py:214-219 | an invalid cart adds only the validation record and never depends on the gateway |
| CheckoutProperties.CloseSaleClosed | api/routes/erp_routes.py:232-285 | on 200 the sale is stored under its id with cart, operator, total and transaction id; it is FINALIZADA with the key iff authorised, else CONTINGÊNCIA without one; `chave_nfe` is the key or "Contingência" |
| CheckoutProperties.CloseSaleAuditTrail | api/routes/erp_routes.py:244-277 | on 200 the trail grows by: sale registered, one exit per item in order, then the fiscal record |
| CheckoutProperties.RecordAndFulfilKeepsKeyIffFinalized | api/routes/erp_routes.py:234-277 | the `try` block keeps "a key is stored exactly on FINALIZADA sales" |
| CheckoutProperties.CloseSaleKeepsKeyIffFinalized | api/routes/erp_routes.py:234-277 | closing a sale, with any outcome, keeps that invariant |
| CheckoutProperties.NoSaleRecordNoStockChange | api/routes/erp_routes.py:244-249 | if the sale cannot be written, an approved sale answers 500 with no product changed |
| CheckoutProperties.RecordAndFulfilKeepsStockSound | api/routes/erp_routes.py:249-261 | the `try` block keeps every stored stock a non-negative integer |
| CheckoutProperties.CloseSaleKeepsStockSound | api/routes/erp_routes.py:255-261 | closing a sale, with any outcome, keeps every stored stock a non-negative integer |
| CheckoutProperties.SellItemsStock | api/routes/erp_routes.py:249-261 | with every stored stock a non-negative integer and every item carrying a numeric `quantidade` and no malformed `estoque_atual` of its own: an item whose barcode no other item shares, which names a stored product, and whose write does not raise ends with stock `max(0, old - quantidade)`, or the item's own `estoque_atual` |
| CheckoutProperties.SellFirstThenUntouched | api/routes/erp_routes.py:255-261 | under the same conditions, when no later item shares the first item's barcode, the first item's write survives the rest of the loop |
| CheckoutProperties.SellOtherKeepsProduct | api/routes/erp_routes.py:255-261 | selling one barcode leaves every other product and its lookup unchanged |
| CheckoutProperties.SellItemsNoRaise | api/routes/erp_routes.py:249-263 | with sound stored stock and a numeric quantity on every item, the stock loop never raises |
| CheckoutProperties.UnknownBarcodeIsSkipped | api/routes/erp_routes.py:255-263 | an unknown barcode writes nothing, does not raise, and still logs its goods exit |
| CheckoutProperties.CloseSaleAsWritten | api/routes/erp_routes.py:266 | as written, a sale never answers 200 |
| CheckoutProperties.ApprovedSaleFailsAsWritten | api/routes/erp_routes.py:244-289 | as written, an approved valid sale answers 500 with the record left APROVADA and its transaction id, after the payment was captured; the products are those the stock loop left |
| CheckoutProperties.ApprovedSaleFinalizesWithIssuer | api/routes/erp_routes.py:266-285 | with an authorising issuer, sound stock and numeric quantities, the same request answers 200 and the sale is FINALIZADA with the key |
| CheckoutProperties.ApprovedSaleContingency | api/routes/erp_routes.py:266-285 | with an issuer that does not authorise, sound stock and numeric quantities, the request answers 200 with `chave_nfe` the issuer's key or "Contingência"; the sale is CONTINGÊNCIA without a stored key |
| CheckoutProperties.CloseSaleRoute | api/routes/erp_routes.py:204-206 | behind the gate, 401 iff the matrícula is falsy, with nothing changed; a 402 changes nothing |
| StockProperties.SaveKeepsStockSound | api/services/firestore_service.py:91-95 | a save whose payload has a sound stock field keeps every stored stock a non-negative integer |
| StockProperties.ReceiveItemKeepsStockSound | api/routes/erp_routes.py:99-111 | an item with a non-negative numeric quantity does not raise and keeps stock sound |
| StockProperties.ReceiveItemsKeepStockSound | api/routes/erp_routes.py:90-114 | so does the whole receiving loop |
| StockProperties.ReceiveItemsStock | api/routes/erp_routes.py:88-111 | with a database handle, every stored stock a non-negative integer, and every item carrying a non-negative numeric `quantidade` and no malformed `estoque_atual` of its own: after the whole receiving loop, an item whose barcode no other item shares and whose write does not raise leaves its product with the stock found before (0 when missing) plus the quantity received, or the item's own `estoque_atual`, and with `custoLiquido` the item's `custo_unitario` unless it carries its own |
| StockProperties.ReceiveFirstThenUntouched | api/routes/erp_routes.py:88-111 | under the same conditions, the first item's receipt survives the rest of the loop when no later item shares its barcode |
| StockProperties.ConfirmReceiptSucceeds | api/routes/erp_routes.py:81-126 | a valid receipt with sound quantities answers 200 and keeps stock sound |
| StockProperties.ConfirmReceiptStock | api/routes/erp_routes.py:81-114 | with a database handle, every stored stock a non-negative integer, and every item carrying a non-negative numeric `quantidade` and no malformed `estoque_atual` of its own: a valid receipt answers 200, and an item whose barcode no other item shares and whose write does not raise leaves its product with the stock found before (0 when missing) plus the quantity, or the item's own `estoque_atual`, and the item's `custo_unitario` as `custoLiquido` unless it carries its own |
| StockProperties.ReceiptWithoutQuantityCrashes | api/routes/erp_routes.py:100-105 | with a database handle, an item without a quantity makes the receipt fail with an escaping TypeError |
| StockProperties.ReceiveAfterFailedReadResetsStock | api/routes/erp_routes.py:100-111 | a failed product read counts as "no product": the stock written is just the quantity received |
| StockProperties.RegisterAsWrittenAlwaysReportsUpdate | api/routes/erp_routes.py:41-44 | as written, a valid registration whose save and follow-up read go through always reports "Atualização", whether or not the barcode was stored before |
| StockProperties.NewProductReportedAsUpdate | api/routes/erp_routes.py:41-44 | registering barcode "789" in an empty store reports "Atualização" as written and "Cadastro" when corrected |

## Notes on the code

- With a database handle, goods receiving answers 500 when an item with a truthy `codigoBarra` has a missing `quantidade`, or one that `+` cannot add to the stock found (for example a string on a numeric stock). Without a handle the item loop does not run (api/routes/erp_routes.py:88-89) and the answer is 200 whatever the quantities. The `estoque_atual + quantidade` at api/routes/erp_routes.py:105 is outside any `try`, so the TypeError escapes after "Confirmação NF" was logged and before "Título Gerado" (`ErpRoutes.ConfirmReceipt`, `StockProperties.ReceiptWithoutQuantityCrashes`).
- A successful login answers with the matrícula, name and access level only; no session token is issued (api/routes/auth_routes.py:64-71, `AuthRoutes.Login`).
- The only sale statuses the code writes are APROVADA, FINALIZADA and CONTINGÊNCIA (api/routes/erp_routes.py:240, 272, 277).

## Left out

- Flask wiring: blueprint registration, static file serving, CORS, `wsgi.py` and `config.py`. The request body is given to each handler as already-parsed fields.
- Request bodies and cart items that are not JSON objects, and `itens` values that are not lists: the model takes a sequence of field maps. A JSON `null` body, which would raise before validation, is not represented.
- Floating-point values and nested arrays or objects inside a document: values are null, booleans, integers, strings and the server-timestamp marker.
- The lazy database initialisation in `get_db`: whether a handle exists is fixed for the whole request (`Store.connected`).
- Firestore path rules beyond "a non-empty string": barcodes containing '/' are treated as plain ids.
- The `timestamp` fields of sales and audit records are not stored. `last_updated` is the `ServerTimestamp` marker.
- Exception texts, the messages of successful responses, and `print` diagnostics. Failed saves keep their result kind and the audit detail keeps the exception value.
- The sample user list of `listar_usuarios` and the random KPI figures of `get_kpis`: only the permission gates are modelled.
- JWT signature checking and password-hash checking are oracles (`App.JwtDecode`, `AuthRoutes.HashCheck`). So are the payment gateway's HTTP exchange and the fiscal issuer. A body that does not decode is a `RequestFailed` outcome (the decode error is a `requests` exception, caught at integrations_service.py:33); a body that decodes to JSON other than an object, on which `.get` would raise AttributeError, is not represented.
- The `dados_pagamento` of a sale request: it is only forwarded to the gateway, whose answer is a parameter (`IntegrationsService.GatewayOutcome`).
- Concurrency: two sales of the same product can interleave their read and write and lose a decrement. Each request is modelled as atomic.
- Clocks before year 1000 or after 9999, whose `strftime` output does not have four year digits (`SaleIds.Now`).
- Store faults are per collection and per document id, not per call. A product whose read fails fails on every read in the same request (`FirestoreService.Faults`).
- Only `POST /vendas/fechar` is composed with the gate explicitly (`CheckoutProperties.CloseSaleRoute`). The other routes sit behind the same `AuthRoutes.AuthRequired`.

## Findings

| source | as written | input that shows it | evidently intended | confidence | as-written member | corrected member |
|---|---|---|---|---|---|---|
| api/routes/erp_routes.py:266 | `fechar_venda` calls `integrations.emitir_nfe`, but `IntegrationsService` defines only `processar_pagamento`; the AttributeError is caught by the handler's `except` | any non-empty cart with a truthy total, an approved payment and a connected store | an issuer call whose authorisation finalizes the sale with its key, or leaves it in contingency | not executed; high (the method is absent from the class) | CheckoutProperties.ApprovedSaleFailsAsWritten | CheckoutProperties.ApprovedSaleFinalizesWithIssuer |
| api/routes/erp_routes.py:41-44 | `cadastrar_produto` checks whether the product exists only after saving it, so the check always finds it | registering barcode "789" named "Café" in an empty store: the audit action is "Atualização" | "Cadastro" for a new barcode, "Atualização" for an existing one | not executed; high | StockProperties.NewProductReportedAsUpdate | ErpRoutes.RegisterProduct |

In the first finding, the answer is 500 with the message "Erro interno ao finalizar a venda". By then the payment has been captured and the sale is stored as APROVADA. The products are as the stock loop left them: every item with a stored product rewritten (max(0, stock − quantidade), or the item's own `estoque_atual`), or, when an item's subtraction raised, those before it (`CheckoutProperties.ApprovedSaleFailsAsWritten`; `CheckoutProperties.CloseSaleAsWritten` never answers 200). `ErpRoutes.CloseSale` takes the issuer's answer as a parameter. `CheckoutProperties.CloseSaleClosed` states what a 200 answer then guarantees, and `CheckoutProperties.ApprovedSaleContingency` covers an issuer that does not authorise.

In the second finding, the product data itself is saved correctly; only the audit action and the response message are wrong. `StockProperties.RegisterAsWrittenAlwaysReportsUpdate` proves this for every valid registration whose save and follow-up read go through. `ErpRoutes.RegisterProduct` proves that its action is "Atualização" exactly when the product existed before the save.

=== FILE: app.dfy ===
/**
 The per-request hook that turns an `Authorization` header into the
 request identity (`g.user_matricula`, `g.user_permissao`, `g.user_nome`).
 Signature verification of the JWT is an oracle applied to the token.
 */
module App {
  import opened PyValues

  datatype Identity = Identity(matricula: Value, permissao: Value, nome: Value)

  /** What every request starts with: all three attributes None. */
  const Anonymous := Identity(Null, Null, Null)

  const BearerPrefix := "Bearer "

  /** `jwt.decode(token, secret, algorithms=['HS256'])`, as an oracle. */
  datatype JwtDecode =
    | Decoded(payload: Fields)
    | ExpiredSignature
    | InvalidToken
    | DecodeRaised(error: string)

  /** The token of an `Authorization` header: the second field of the header
      split on single spaces, taken only when the header starts with
      "Bearer ". */
  function BearerToken(header: Option<string>): (t: Option<string>)
    ensures t.Some? <==> header.Some? && |header.value| >= |BearerPrefix| && header.value[..|BearerPrefix|] == BearerPrefix
    ensures t.Some? ==> ' ' !in t.value
  {
    match header
    case None => None
    case Some(h) =>
      if h != "" && |h| >= |BearerPrefix| && h[..|BearerPrefix|] == BearerPrefix then
        assert h == "Bearer" + [' '] + h[|BearerPrefix|..];
        SplitAfterPrefix("Bearer", h[|BearerPrefix|..], ' ');
        Some(Split(h, ' ')[1])
      else None
  }

  /** The extracted token is the text after "Bearer " up to the next space
      (or the end): so "Bearer  x" yields the empty token and
      "Bearer a b" yields "a". */
  lemma BearerTokenShape(rest: string)
    ensures BearerToken(Some(BearerPrefix + rest)).Some?
    ensures var t := BearerToken(Some(BearerPrefix + rest)).value;
            t <= rest && (t == rest || rest[|t|] == ' ')
  {
    var h := BearerPrefix + rest;
    assert h[..|BearerPrefix|] == BearerPrefix;
    assert h == "Bearer" + [' '] + rest;
    SplitAfterPrefix("Bearer", rest, ' ');
    SplitFirstField(rest, ' ');
  }

  /** `before_request`: resets the identity, then fills matrícula and
      permission from a successfully decoded token. Decode failures of any
      kind are swallowed and leave the identity anonymous. */
  function BeforeRequest(header: Option<string>, decode: string -> JwtDecode): (id: Identity)
    ensures id.nome == Null
    ensures id != Anonymous ==>
      BearerToken(header).Some? && BearerToken(header).value != "" && decode(BearerToken(header).value).Decoded?
    ensures BearerToken(header).Some? && BearerToken(header).value != "" && decode(BearerToken(header).value).Decoded? ==>
      var payload := decode(BearerToken(header).value).payload;
      id == Identity(Get(payload, "sub"), Get(payload, "permissao"), Null)
  {
    var token := BearerToken(header);
    if token.None? || token.value == "" then Anonymous
    else match decode(token.value)
      case Decoded(payload) => Identity(Get(payload, "sub"), Get(payload, "permissao"), Null)
      case _ => Anonymous
  }

  /** A header that does not start with "Bearer " never reaches the decoder:
      the identity is anonymous whatever the decoder would say. */
  lemma NoBearerNoIdentity(header: Option<string>, decode: string -> JwtDecode)
    requires header.None? || |header.value| < |BearerPrefix| || header.value[..|BearerPrefix|] != BearerPrefix
    ensures BeforeRequest(header, decode) == Anonymous
  {
  }
}

=== FILE: auth_routes.dfy ===
/**
 The authentication gate every ERP route sits behind, and the login
 decision tree. Password-hash verification is an oracle applied to the
 stored hash and the typed password.
 */
module AuthRoutes {
  import opened PyValues
  import opened FirestoreService

  /** A response from behind the gate: the gate's own 401, or whatever the
      wrapped handler answered. */
  datatype Guarded<T> = Unauthenticated(message: string) | Handled(response: T)

  const UnauthenticatedMessage := "Autenticação necessária. Matrícula ausente no Header."

  /** `auth_required`: the handler runs on the store iff the request's
      identity carries a truthy matrícula; otherwise 401 and the store is
      left exactly as it was. */
  function AuthRequired<T>(matricula: Value, st: Store, handler: Store -> (Store, T)): (r: (Store, Guarded<T>))
    ensures r.1.Handled? <==> Truthy(matricula)
    ensures r.1.Unauthenticated? ==> r.0 == st && r.1.message == UnauthenticatedMessage
    ensures r.1.Handled? ==> r == (handler(st).0, Handled(handler(st).1))
  {
    if !Truthy(matricula) then (st, Unauthenticated(UnauthenticatedMessage))
    else
      var (st', resp) := handler(st);
      (st', Handled(resp))
  }

  datatype LoginRequest = LoginRequest(matricula: Value, senha: Value)

  /** `check_password_hash(stored, typed)`, as an oracle. */
  datatype HashCheck = HashMatches | HashDiffers | HashRaised(error: string)

  datatype LoginResponse =
    | LoggedIn(matricula: Value, nome: Value, permissao: Value)
    | LoginFailed(httpStatus: int, message: string)
  {
    function HttpStatus(): int {
      if LoggedIn? then 200 else httpStatus
    }
  }

  const InvalidCredentials := "Matrícula ou senha inválida."
  const Unknown := Str("DESCONHECIDO")

  /** `login`: validation, user lookup, stored-hash presence, hash check. */
  function Login(st: Store, f: Faults, req: LoginRequest, check: (Value, Value) -> HashCheck): (r: (Store, LoginResponse))
    ensures r.0.products == st.products && r.0.sales == st.sales && r.0.users == st.users
    ensures r.1.HttpStatus() == 400 <==> !Truthy(req.matricula) || !Truthy(req.senha)
    ensures r.1.LoggedIn? <==>
      && Truthy(req.matricula) && Truthy(req.senha)
      && FindUser(st, f, req.matricula).Some? && NonEmpty(FindUser(st, f, req.matricula).value)
      && Truthy(Get(FindUser(st, f, req.matricula).value, "senha_hash"))
      && check(Get(FindUser(st, f, req.matricula).value, "senha_hash"), req.senha) == HashMatches
    ensures r.1.LoggedIn? ==>
      var user := FindUser(st, f, req.matricula).value;
      r.1 == LoggedIn(req.matricula, GetOr(user, "nome", req.matricula), GetOr(user, "acesso", Str("Operador")))
    ensures Truthy(req.matricula) && Truthy(req.senha)
            && (FindUser(st, f, req.matricula).None? || !NonEmpty(FindUser(st, f, req.matricula).value)) ==>
      r.1 == LoginFailed(401, InvalidCredentials)
    ensures Truthy(req.matricula) && Truthy(req.senha)
            && FindUser(st, f, req.matricula).Some? && NonEmpty(FindUser(st, f, req.matricula).value)
            && Truthy(Get(FindUser(st, f, req.matricula).value, "senha_hash")) ==>
      var verdict := check(Get(FindUser(st, f, req.matricula).value, "senha_hash"), req.senha);
      && (verdict == HashDiffers ==> r.1 == LoginFailed(401, InvalidCredentials))
      && (verdict.HashRaised? ==> r.1 == LoginFailed(500, "Erro interno do servidor."))
    ensures r.1.HttpStatus() in {200, 400, 401, 500}
    ensures Audits(st, f) ==> |r.0.audit| == |st.audit| + 1 && r.0.audit[..|st.audit|] == st.audit
    ensures Audits(st, f) ==> (r.0.audit[|st.audit|].actor == Unknown <==> r.1.HttpStatus() == 400 || req.matricula == Unknown)
    ensures !Audits(st, f) ==> r.0 == st
  {
    if !Truthy(req.matricula) || !Truthy(req.senha) then
      (LogAudit(st, f, Unknown, "Autenticação", "Erro Validação", Text("Matrícula ou senha ausente.")),
       LoginFailed(400, "Matrícula e senha são obrigatórias."))
    else
      var m := req.matricula;
      var found := FindUser(st, f, m);
      if found.None? || !NonEmpty(found.value) then
        (LogAudit(st, f, m, "Autenticação", "Falha Login", Text("Matrícula inexistente.")),
         LoginFailed(401, InvalidCredentials))
      else
        var user := found.value;
        var hash := Get(user, "senha_hash");
        if !Truthy(hash) then
          (LogAudit(st, f, m, "Autenticação", "Falha Login", Text("Usuário sem hash de senha no DB.")),
           LoginFailed(500, "Erro de segurança: Hash de senha ausente."))
        else match check(hash, req.senha)
          case HashMatches =>
            (LogAudit(st, f, m, "Autenticação", "Login Sucesso", Text("")),
             LoggedIn(m, GetOr(user, "nome", m), GetOr(user, "acesso", Str("Operador"))))
          case HashDiffers =>
            (LogAudit(st, f, m, "Autenticação", "Falha Login", Text("Senha incorreta.")),
             LoginFailed(401, InvalidCredentials))
          case HashRaised(e) =>
            (LogAudit(st, f, m, "Autenticação", "Erro Crítico",
                      FormatError("Falha na verificação de hash: {}", [], RemoteFailure(e))),
             LoginFailed(500, "Erro interno do servidor."))
  }

  /** An unknown matrícula and a wrong password are indistinguishable in the
      response: both answer 401 with the same message. */
  lemma UnknownUserLooksLikeWrongPassword(
    st: Store, f: Faults, m: Value, senha: Value, check: (Value, Value) -> HashCheck,
    st2: Store, m2: Value, senha2: Value, check2: (Value, Value) -> HashCheck)
    requires Truthy(m) && Truthy(senha) && FindUser(st, f, m).None?
    requires Truthy(m2) && Truthy(senha2)
    requires FindUser(st2, f, m2).Some? && NonEmpty(FindUser(st2, f, m2).value)
    requires Truthy(Get(FindUser(st2, f, m2).value, "senha_hash"))
    requires check2(Get(FindUser(st2, f, m2).value, "senha_hash"), senha2) == HashDiffers
    ensures Login(st, f, LoginRequest(m, senha), check).1 == Login(st2, f, LoginRequest(m2, senha2), check2).1
    ensures Login(st, f, LoginRequest(m, senha), check).1 == LoginFailed(401, InvalidCredentials)
  {
  }

  /** A user document without a (truthy) `senha_hash` answers 500, whatever
      the hash oracle would have said, and the oracle's verdict is never consulted. */
  lemma MissingHashIsServerError(st: Store, f: Faults, req: LoginRequest, check: (Value, Value) -> HashCheck)
    requires Truthy(req.matricula) && Truthy(req.senha)
    requires FindUser(st, f, req.matricula).Some? && NonEmpty(FindUser(st, f, req.matricula).value)
    requires !Truthy(Get(FindUser(st, f, req.matricula).value, "senha_hash"))
    ensures Login(st, f, req, check).1 == LoginFailed(500, "Erro de segurança: Hash de senha ausente.")
    ensures forall other: (Value, Value) -> HashCheck :: Login(st, f, req, other) == Login(st, f, req, check)
  {
  }

  /** Permission levels allowed through the Admin/Gerente gate. */
  predicate Elevated(permissao: Value) {
    permissao in [Str("Admin"), Str("Gerente")]
  }
}

=== FILE: checkout_properties.dfy ===
/**
 Properties of sale closing (`fechar_venda`) that relate several steps:
 what the persisted sale looks like at the end, the order of the audit
 trail, the stock a sale leaves, and what happens when the fiscal call or
 the store fails.
 */
module CheckoutProperties {
  import opened PyValues
  import opened FirestoreService
  import opened IntegrationsService
  import opened SaleIds
  import opened AuthRoutes
  import opened ErpRoutes

  /** A fiscal key is stored exactly on the FINALIZADA sales. */
  ghost predicate KeyIffFinalized(sales: map<string, Sale>) {
    forall id :: id in sales ==> (sales[id].nfeKey.Some? <==> sales[id].status == Finalizada)
  }

  /** The store left after an approved payment, the sale write and the
      "Venda Registrada" entry, just before the stock loop. */
  function AfterSaleWrite(st: Store, f: Faults, actor: Value, sale: Sale): Store {
    LogAudit(st.(sales := st.sales[sale.id := sale]), f, actor, "PDV", "Venda Registrada", Format("ID: {}", [Str(sale.id)]))
  }

  /** The fiscal step's audit entry. */
  function FiscalEntry(actor: Value, id: string, fiscal: FiscalOutcome): AuditRecord {
    if fiscal.Authorized? then AuditRecord(actor, "Fiscal", "NF-e Autorizada", Format("Chave: {}", [fiscal.accessKey]))
    else AuditRecord(actor, "Fiscal", "NF-e Falha", Format("Venda {}", [Str(id)]))
  }

  /** The body of the `try` block, unfolded for a store that accepts the
      sale write. */
  lemma RecordAndFulfilUnfold(st: Store, f: Faults, actor: Value, sale: Sale, fiscal: FiscalOutcome)
    requires st.connected && !f.saleWriteFails
    ensures var sold := SellItems(AfterSaleWrite(st, f, actor, sale), f, actor, sale.items);
      RecordAndFulfil(st, f, actor, sale, fiscal) ==
        if sold.raised.Some? then sold else IssueFiscal(sold.store, f, actor, sale.id, fiscal)
  {
  }

  /** A 200 answer means the sale document exists under the generated id,
      carries the cart, the operator and the payment's transaction id, and
      is FINALIZADA with the fiscal key exactly when the issuer authorised
      it, CONTINGÊNCIA without a key otherwise; the answer's `chave_nfe` is
      the key or the literal "Contingência". */
  lemma CloseSaleClosed(
    st: Store, f: Faults, actor: Value, req: SaleRequest,
    gateway: GatewayOutcome, now: Now, suffix: Suffix, fiscal: FiscalOutcome)
    requires CloseSale(st, f, actor, req, gateway, now, suffix, fiscal).1.SaleClosed?
    ensures var r := CloseSale(st, f, actor, req, gateway, now, suffix, fiscal);
      var id := SaleId(now, suffix);
      && ProcessPayment(gateway).Approved?
      && id in r.0.sales
      && r.0.sales[id].id == id
      && r.0.sales[id].operator == actor && r.0.sales[id].items == req.items && r.0.sales[id].total == req.total
      && r.0.sales[id].transactionId == ProcessPayment(gateway).transactionId
      && (fiscal.Authorized? ==> r.0.sales[id].status == Finalizada && r.0.sales[id].nfeKey == Some(fiscal.accessKey))
      && (!fiscal.Authorized? ==> r.0.sales[id].status == Contingencia && r.0.sales[id].nfeKey.None?)
      && r.1.chaveNfe == ChaveNfe(fiscal)
      && r.1.chaveNfe == (if fiscal.Authorized? then fiscal.accessKey
                          else if fiscal.keyIfAny.Some? then fiscal.keyIfAny.value else Str("Contingência"))
  {
    var id := SaleId(now, suffix);
    var payment := ProcessPayment(gateway);
    var sale := InitialSale(id, actor, req, payment.transactionId);
    RecordAndFulfilUnfold(st, f, actor, sale, fiscal);
    var st2 := AfterSaleWrite(st, f, actor, sale);
    assert id in st2.sales && st2.sales[id] == sale;
  }

  /** On a 200 answer with a working audit sink, the trail grows by exactly:
      the sale registration, one goods-exit entry per cart item in cart
      order (found or not), then the fiscal entry. The registration entry
      precedes every stock entry. */
  lemma CloseSaleAuditTrail(
    st: Store, f: Faults, actor: Value, req: SaleRequest,
    gateway: GatewayOutcome, now: Now, suffix: Suffix, fiscal: FiscalOutcome)
    requires Audits(st, f)
    requires CloseSale(st, f, actor, req, gateway, now, suffix, fiscal).1.SaleClosed?
    ensures var id := SaleId(now, suffix);
      CloseSale(st, f, actor, req, gateway, now, suffix, fiscal).0.audit ==
        st.audit
        + [AuditRecord(actor, "PDV", "Venda Registrada", Format("ID: {}", [Str(id)]))]
        + ExitEntries(actor, req.items)
        + [FiscalEntry(actor, id, fiscal)]
  {
    var id := SaleId(now, suffix);
    var sale := InitialSale(id, actor, req, ProcessPayment(gateway).transactionId);
    RecordAndFulfilUnfold(st, f, actor, sale, fiscal);
  }

  /** After a valid, approved cart, the products and sales the handler
      leaves are those its `try` block leaves (the error path only logs). */
  lemma CloseSaleStoreIsBody(
    st: Store, f: Faults, actor: Value, req: SaleRequest,
    gateway: GatewayOutcome, now: Now, suffix: Suffix, fiscal: FiscalOutcome)
    requires |req.items| > 0 && Truthy(req.total) && ProcessPayment(gateway).Approved?
    ensures var body := RecordAndFulfil(st, f, actor,
                          InitialSale(SaleId(now, suffix), actor, req, ProcessPayment(gateway).transactionId), fiscal);
      var r := CloseSale(st, f, actor, req, gateway, now, suffix, fiscal);
      r.0.products == body.store.products && r.0.sales == body.store.sales
  {
  }

  /** The `try` block keeps "a key is stored exactly on FINALIZADA sales"
      when the record it writes starts APROVADA without a key. */
  lemma RecordAndFulfilKeepsKeyIffFinalized(st: Store, f: Faults, actor: Value, sale: Sale, fiscal: FiscalOutcome)
    requires KeyIffFinalized(st.sales)
    requires sale.status == Aprovada && sale.nfeKey.None?
    ensures KeyIffFinalized(RecordAndFulfil(st, f, actor, sale, fiscal).store.sales)
  {
    if st.connected && !f.saleWriteFails {
      RecordAndFulfilUnfold(st, f, actor, sale, fiscal);
      var st2 := AfterSaleWrite(st, f, actor, sale);
      assert KeyIffFinalized(st2.sales);
      var sold := SellItems(st2, f, actor, sale.items);
      assert sold.store.sales == st2.sales;
      if sold.raised.None? {
        var done := IssueFiscal(sold.store, f, actor, sale.id, fiscal);
        assert forall k :: k in done.store.sales && k != sale.id ==> done.store.sales[k] == st2.sales[k];
      }
    }
  }

  /** Closing a sale never breaks "a key is stored exactly on FINALIZADA
      sales", whatever the outcome: a new record starts APROVADA without a
      key, and the fiscal step sets key and status together. */
  lemma CloseSaleKeepsKeyIffFinalized(
    st: Store, f: Faults, actor: Value, req: SaleRequest,
    gateway: GatewayOutcome, now: Now, suffix: Suffix, fiscal: FiscalOutcome)
    requires KeyIffFinalized(st.sales)
    ensures KeyIffFinalized(CloseSale(st, f, actor, req, gateway, now, suffix, fiscal).0.sales)
  {
    if |req.items| > 0 && Truthy(req.total) && ProcessPayment(gateway).Approved? {
      var sale := InitialSale(SaleId(now, suffix), actor, req, ProcessPayment(gateway).transactionId);
      CloseSaleStoreIsBody(st, f, actor, req, gateway, now, suffix, fiscal);
      RecordAndFulfilKeepsKeyIffFinalized(st, f, actor, sale, fiscal);
    }
  }

  /** The sale record is written before any stock is touched: when the
      sale write cannot happen (no database handle, or the store rejects
      it), an approved sale answers 500 and no product changes. */
  lemma NoSaleRecordNoStockChange(
    st: Store, f: Faults, actor: Value, req: SaleRequest,
    gateway: GatewayOutcome, now: Now, suffix: Suffix, fiscal: FiscalOutcome)
    requires |req.items| > 0 && Truthy(req.total) && ProcessPayment(gateway).Approved?
    requires !st.connected || f.saleWriteFails
    ensures var r := CloseSale(st, f, actor, req, gateway, now, suffix, fiscal);
      && r.1.HttpStatus() == 500
      && r.0.products == st.products && r.0.sales == st.sales
      && (!st.connected ==> r.0 == st && r.1.error == AttributeError("collection"))
  {
  }

  /** Stock stays a non-negative integer: if every stored stock is, and no
      cart item carries a malformed `estoque_atual` of its own, then after
      a sale (whatever its outcome) every stored stock still is. */
  lemma CloseSaleKeepsStockSound(
    st: Store, f: Faults, actor: Value, req: SaleRequest,
    gateway: GatewayOutcome, now: Now, suffix: Suffix, fiscal: FiscalOutcome)
    requires StockSound(st.products)
    requires forall i :: 0 <= i < |req.items| ==> StockOk(req.items[i])
    ensures StockSound(CloseSale(st, f, actor, req, gateway, now, suffix, fiscal).0.products)
  {
    if |req.items| > 0 && Truthy(req.total) && ProcessPayment(gateway).Approved? {
      var sale := InitialSale(SaleId(now, suffix), actor, req, ProcessPayment(gateway).transactionId);
      CloseSaleStoreIsBody(st, f, actor, req, gateway, now, suffix, fiscal);
      RecordAndFulfilKeepsStockSound(st, f, actor, sale, fiscal);
    }
  }

  lemma RecordAndFulfilKeepsStockSound(st: Store, f: Faults, actor: Value, sale: Sale, fiscal: FiscalOutcome)
    requires StockSound(st.products)
    requires forall i :: 0 <= i < |sale.items| ==> StockOk(sale.items[i])
    ensures StockSound(RecordAndFulfil(st, f, actor, sale, fiscal).store.products)
  {
    if st.connected && !f.saleWriteFails {
      RecordAndFulfilUnfold(st, f, actor, sale, fiscal);
      var st2 := AfterSaleWrite(st, f, actor, sale);
      assert st2.products == st.products;
      var sold := SellItems(st2, f, actor, sale.items);
      assert StockSound(sold.store.products);
    }
  }

  /** Product `b` went from `before` to `after` carrying the stock a sale of
      `item` computes from its old document. */
  ghost predicate SoldStock(before: map<string, Fields>, after: map<string, Fields>, b: string, item: Fields) {
    && b in before && b in after
    && StockAfterSale(before[b], item).Some?
    && "estoque_atual" in after[b]
    && after[b]["estoque_atual"] == StockAfterSale(before[b], item).value
  }

  /** The stock a sale leaves for one cart item whose barcode no other item
      shares: for a product that exists (and whose read and write go
      through), `max(0, old - quantidade)`, unless the item carries its own
      `estoque_atual`, which wins the merge. */
  lemma {:induction false} SellItemsStock(st: Store, f: Faults, actor: Value, items: seq<Fields>, j: nat)
    requires j < |items|
    requires Get(items[j], "codigoBarra").Str?
    requires forall i :: 0 <= i < |items| && i != j ==> Get(items[i], "codigoBarra") != Get(items[j], "codigoBarra")
    requires Exists(st, f, Get(items[j], "codigoBarra"))
    requires Get(items[j], "codigoBarra").s !in f.productWriteFails
    requires StockSound(st.products) && Sellable(items)
    ensures SoldStock(st.products, SellItems(st, f, actor, items).store.products, Get(items[j], "codigoBarra").s, items[j])
    decreases |items|
  {
    if j == 0 {
      SellFirstThenUntouched(st, f, actor, items);
    } else {
      SellRestPre(st, f, actor, items, j);
      SellItemsStock(SellItem(st, f, actor, items[0]).store, f, actor, items[1..], j - 1);
      SellRestStep(st, f, actor, items, j);
    }
  }

  /** The recursive case's obligations: after the first item, the rest of
      the cart still meets the conditions for the item at `j`. */
  lemma SellRestPre(st: Store, f: Faults, actor: Value, items: seq<Fields>, j: nat)
    requires 0 < j < |items|
    requires Get(items[j], "codigoBarra").Str?
    requires forall i :: 0 <= i < |items| && i != j ==> Get(items[i], "codigoBarra") != Get(items[j], "codigoBarra")
    requires Exists(st, f, Get(items[j], "codigoBarra"))
    requires StockSound(st.products) && Sellable(items)
    ensures var first := SellItem(st, f, actor, items[0]);
      && first.raised.None?
      && items[1..][j - 1] == items[j]
      && (forall i :: 0 <= i < |items[1..]| && i != j - 1 ==>
            Get(items[1..][i], "codigoBarra") != Get(items[1..][j - 1], "codigoBarra"))
      && Exists(first.store, f, Get(items[j], "codigoBarra"))
      && StockSound(first.store.products) && Sellable(items[1..])
  {
    var first := SellItem(st, f, actor, items[0]);
    SellItemsNoRaise(st, f, actor, items);
    assert first.raised.None?;
    assert forall i :: 0 <= i < |items[1..]| ==> items[1..][i] == items[i + 1];
    SellOtherKeepsProduct(st, f, actor, items[0], Get(items[j], "codigoBarra").s);
    TailKeepsUnshared(items, j);
  }

  /** The recursive case's conclusion: the first item, having another
      barcode, leaves the product's old document as the rest found it. */
  lemma SellRestStep(st: Store, f: Faults, actor: Value, items: seq<Fields>, j: nat)
    requires 0 < j < |items|
    requires Get(items[j], "codigoBarra").Str?
    requires Get(items[0], "codigoBarra") != Get(items[j], "codigoBarra")
    requires SellItem(st, f, actor, items[0]).raised.None?
    requires SoldStock(SellItem(st, f, actor, items[0]).store.products,
                       SellItems(SellItem(st, f, actor, items[0]).store, f, actor, items[1..]).store.products,
                       Get(items[j], "codigoBarra").s, items[j])
    ensures SoldStock(st.products, SellItems(st, f, actor, items).store.products, Get(items[j], "codigoBarra").s, items[j])
  {
    var first := SellItem(st, f, actor, items[0]);
    SellOtherKeepsProduct(st, f, actor, items[0], Get(items[j], "codigoBarra").s);
    assert SellItems(st, f, actor, items) == SellItems(first.store, f, actor, items[1..]);
  }

  /** An item whose barcode no other item shares keeps that property in
      the tail of the cart. */
  lemma TailKeepsUnshared(items: seq<Fields>, j: nat)
    requires 0 < j < |items|
    requires forall i :: 0 <= i < |items| && i != j ==> Get(items[i], "codigoBarra") != Get(items[j], "codigoBarra")
    ensures items[1..][j - 1] == items[j]
    ensures forall i :: 0 <= i < |items[1..]| && i != j - 1 ==>
      Get(items[1..][i], "codigoBarra") != Get(items[1..][j - 1], "codigoBarra")
  {
    forall i | 0 <= i < |items[1..]| && i != j - 1
      ensures Get(items[1..][i], "codigoBarra") != Get(items[1..][j - 1], "codigoBarra")
    {
      assert items[1..][i] == items[i + 1];
    }
  }

  /** The first item's write survives the rest of the loop when no later
      item shares its barcode. */
  lemma SellFirstThenUntouched(st: Store, f: Faults, actor: Value, items: seq<Fields>)
    requires |items| > 0 && Get(items[0], "codigoBarra").Str?
    requires forall i :: 0 < i < |items| ==> Get(items[i], "codigoBarra") != Get(items[0], "codigoBarra")
    requires Exists(st, f, Get(items[0], "codigoBarra"))
    requires Get(items[0], "codigoBarra").s !in f.productWriteFails
    requires StockSound(st.products) && Sellable(items)
    ensures SoldStock(st.products, SellItems(st, f, actor, items).store.products, Get(items[0], "codigoBarra").s, items[0])
  {
    var b := Get(items[0], "codigoBarra").s;
    var first := SellItem(st, f, actor, items[0]);
    var rest := items[1..];
    SellItemsNoRaise(st, f, actor, items);
    assert first.raised.None?;
    assert FindProduct(st, f, Get(items[0], "codigoBarra")) == Some(st.products[b]);
    assert Untouched(b, rest) by {
      forall i | 0 <= i < |rest| ensures Get(rest[i], "codigoBarra") != Str(b) {
        assert rest[i] == items[i + 1];
      }
    }
    assert b in first.store.products;
  }

  /** Selling an item with another barcode leaves a product as it was. */
  lemma SellOtherKeepsProduct(st: Store, f: Faults, actor: Value, item: Fields, b: string)
    requires Get(item, "codigoBarra") != Str(b)
    ensures var st' := SellItem(st, f, actor, item).store;
      && (b in st'.products <==> b in st.products)
      && (b in st.products ==> st'.products[b] == st.products[b])
      && FindProduct(st', f, Str(b)) == FindProduct(st, f, Str(b))
  {
  }

  /** A cart item whose barcode names no stored product writes nothing and
      does not stop the sale: products keep their documents and the
      remaining items are still processed (each logs its goods exit). */
  lemma UnknownBarcodeIsSkipped(st: Store, f: Faults, actor: Value, item: Fields)
    requires !Exists(st, f, Get(item, "codigoBarra"))
    ensures SellItem(st, f, actor, item).raised.None?
    ensures SellItem(st, f, actor, item).store.products == st.products
    ensures Audits(st, f) ==> SellItem(st, f, actor, item).store.audit == st.audit + [ExitEntry(actor, item)]
  {
  }

  // ---------------------------------------------------------------------
  // The fiscal call as written
  // ---------------------------------------------------------------------

  /** `fechar_venda` exactly as written: the fiscal step calls a method the
      integration class does not define. */
  function CloseSaleAsWritten(
    st: Store, f: Faults, actor: Value, req: SaleRequest,
    gateway: GatewayOutcome, now: Now, suffix: Suffix): (r: (Store, SaleResponse))
    ensures r.1.HttpStatus() in {400, 402, 500}
  {
    CloseSale(st, f, actor, req, gateway, now, suffix, EmitNfeAsWritten)
  }

  /** As written, a valid cart whose payment is approved always answers
      500, after the payment was captured and the sale stored as APROVADA;
      the products are left as the stock loop left them (every item with a
      stored product rewritten, or only those before the item whose
      subtraction raised). */
  lemma ApprovedSaleFailsAsWritten(
    st: Store, actor: Value, req: SaleRequest, gateway: GatewayOutcome, now: Now, suffix: Suffix)
    requires st.connected
    requires |req.items| > 0 && Truthy(req.total) && ProcessPayment(gateway).Approved?
    ensures var r := CloseSaleAsWritten(st, NoFaults, actor, req, gateway, now, suffix);
      && r.1.HttpStatus() == 500
      && SaleId(now, suffix) in r.0.sales
      && r.0.sales[SaleId(now, suffix)].status == Aprovada
      && r.0.sales[SaleId(now, suffix)].transactionId == ProcessPayment(gateway).transactionId
      && r.0.products == SellItems(AfterSaleWrite(st, NoFaults, actor,
                                     InitialSale(SaleId(now, suffix), actor, req, ProcessPayment(gateway).transactionId)),
                                   NoFaults, actor, req.items).store.products
  {
    var id := SaleId(now, suffix);
    var sale := InitialSale(id, actor, req, ProcessPayment(gateway).transactionId);
    RecordAndFulfilUnfold(st, NoFaults, actor, sale, EmitNfeAsWritten);
    assert AfterSaleWrite(st, NoFaults, actor, sale).sales[id] == sale;
  }

  /** Every cart item carries a numeric quantity and no malformed stock of
      its own. */
  predicate Sellable(items: seq<Fields>) {
    forall i :: 0 <= i < |items| ==> StockOk(items[i]) && AsNumber(Get(items[i], "quantidade")).Some?
  }

  /** With sound stored stock and a sellable cart, the stock loop never
      raises. */
  lemma {:induction false} SellItemsNoRaise(st: Store, f: Faults, actor: Value, items: seq<Fields>)
    requires StockSound(st.products) && Sellable(items)
    ensures SellItems(st, f, actor, items).raised.None?
    decreases |items|
  {
    if |items| > 0 {
      var first := SellItem(st, f, actor, items[0]);
      var found := FindProduct(st, f, Get(items[0], "codigoBarra"));
      if found.Some? && NonEmpty(found.value) {
        assert StockOk(found.value);
        assert StockAfterSale(found.value, items[0]).Some?;
      }
      assert first.raised.None?;
      assert forall i :: 0 <= i < |items[1..]| ==> items[1..][i] == items[i + 1];
      SellItemsNoRaise(first.store, f, actor, items[1..]);
    }
  }

  /** With an issuer that authorises, the same request completes: 200,
      the sale FINALIZADA with the issued key. */
  lemma ApprovedSaleFinalizesWithIssuer(
    st: Store, actor: Value, req: SaleRequest, gateway: GatewayOutcome, now: Now, suffix: Suffix, key: Value)
    requires st.connected && StockSound(st.products)
    requires |req.items| > 0 && Truthy(req.total) && ProcessPayment(gateway).Approved?
    requires Sellable(req.items)
    ensures var r := CloseSale(st, NoFaults, actor, req, gateway, now, suffix, Authorized(key));
      && r.1 == SaleClosed(SaleId(now, suffix), key)
      && r.0.sales[SaleId(now, suffix)].status == Finalizada
      && r.0.sales[SaleId(now, suffix)].nfeKey == Some(key)
  {
    var id := SaleId(now, suffix);
    var sale := InitialSale(id, actor, req, ProcessPayment(gateway).transactionId);
    RecordAndFulfilUnfold(st, NoFaults, actor, sale, Authorized(key));
    SellItemsNoRaise(AfterSaleWrite(st, NoFaults, actor, sale), NoFaults, actor, req.items);
    CloseSaleClosed(st, NoFaults, actor, req, gateway, now, suffix, Authorized(key));
  }

  /** With an issuer that answers but does not authorise, the same request
      still completes: 200, the sale in CONTINGÊNCIA without a stored key,
      and `chave_nfe` the issuer's key if it sent one, else "Contingência". */
  lemma ApprovedSaleContingency(
    st: Store, actor: Value, req: SaleRequest, gateway: GatewayOutcome, now: Now, suffix: Suffix, k: Option<Value>)
    requires st.connected && StockSound(st.products)
    requires |req.items| > 0 && Truthy(req.total) && ProcessPayment(gateway).Approved?
    requires Sellable(req.items)
    ensures var r := CloseSale(st, NoFaults, actor, req, gateway, now, suffix, NotAuthorized(k));
      && r.1 == SaleClosed(SaleId(now, suffix), if k.Some? then k.value else Str("Contingência"))
      && r.0.sales[SaleId(now, suffix)].status == Contingencia
      && r.0.sales[SaleId(now, suffix)].nfeKey.None?
  {
    var id := SaleId(now, suffix);
    var sale := InitialSale(id, actor, req, ProcessPayment(gateway).transactionId);
    RecordAndFulfilUnfold(st, NoFaults, actor, sale, NotAuthorized(k));
    SellItemsNoRaise(AfterSaleWrite(st, NoFaults, actor, sale), NoFaults, actor, req.items);
    CloseSaleClosed(st, NoFaults, actor, req, gateway, now, suffix, NotAuthorized(k));
  }

  // ---------------------------------------------------------------------
  // The route behind the gate
  // ---------------------------------------------------------------------

  /** `POST /vendas/fechar`: the handler behind `auth_required`. */
  function CloseSaleRoute(
    matricula: Value, st: Store, f: Faults, req: SaleRequest,
    gateway: GatewayOutcome, now: Now, suffix: Suffix, fiscal: FiscalOutcome): (r: (Store, Guarded<SaleResponse>))
    ensures r.1.Unauthenticated? <==> !Truthy(matricula)
    ensures r.1.Unauthenticated? ==> r.0 == st
    ensures r.1.Handled? ==> r.1.response.HttpStatus() != 402 || r.0 == st
  {
    AuthRequired(matricula, st, s => CloseSale(s, f, matricula, req, gateway, now, suffix, fiscal))
  }
}

=== FILE: erp_routes.dfy ===
/**
 The ERP handlers: product registration and lookup, goods receiving,
 the Admin/Gerente permission gate, and sale closing (payment, sale
 record, stock decrement, fiscal document). Each handler is a pure step
 from a store to a store and a response; every external outcome
 (payment gateway, fiscal issuer, clock, random suffix, store faults)
 is a parameter.
 */
module ErpRoutes {
  import opened PyValues
  import opened FirestoreService
  import opened IntegrationsService
  import opened SaleIds
  import opened AuthRoutes

  // ---------------------------------------------------------------------
  // Stock bookkeeping shared by selling and receiving
  // ---------------------------------------------------------------------

  /** A `try`-block section: the store it leaves and the exception, if any,
      that cut it short. */
  datatype Step = Step(store: Store, raised: Option<Exc>)

  /** A document (or a payload) whose `estoque_atual`, if present, is a
      non-negative integer. */
  predicate StockOk(doc: Fields) {
    "estoque_atual" in doc ==> doc["estoque_atual"].Int? && doc["estoque_atual"].i >= 0
  }

  ghost predicate StockSound(products: map<string, Fields>) {
    forall id :: id in products ==> StockOk(products[id])
  }

  /** `k` is not the barcode of any of `items`. */
  ghost predicate Untouched(k: string, items: seq<Fields>) {
    forall i :: 0 <= i < |items| ==> Get(items[i], "codigoBarra") != Str(k)
  }

  /** The stock a sale leaves for a product whose current document is `doc`:
      the item's own `estoque_atual` if it carries one (it wins the dict
      union), otherwise the old stock (0 when absent) minus the quantity,
      floored at 0. None stands for the TypeError of a non-numeric operand. */
  function StockAfterSale(doc: Fields, item: Fields): Option<Value> {
    match Sub(GetOr(doc, "estoque_atual", Int(0)), Get(item, "quantidade"))
    case None => None
    case Some(d) => Some(if "estoque_atual" in item then item["estoque_atual"] else Int(FloorAtZero(d)))
  }

  // ---------------------------------------------------------------------
  // Product registration and lookup
  // ---------------------------------------------------------------------

  datatype RegisterResponse =
    | RegisterInvalid
    | Registered(action: string)
    | RegisterFailed(result: SaveResult)
  {
    function HttpStatus(): int {
      match this
      case RegisterInvalid => 400
      case Registered(_) => 200
      case RegisterFailed(_) => 500
    }
  }

  /** The audit detail of a failed save, `f"Falha ao salvar {barcode}: {message}"`. */
  function SaveFailureDetail(barcode: Value, result: SaveResult): Detail {
    match result.FixedMessage()
    case Some(m) => Format("Falha ao salvar {}: {}", [barcode, Str(m)])
    case None =>
      FormatError("Falha ao salvar {}: Erro interno ao salvar produto: {}", [barcode],
                  if result.WriteRaised? then result.error else StoreFailure)
  }

  /** Whether the route's lookup sees a product (a non-empty document). */
  predicate Exists(st: Store, f: Faults, barcode: Value) {
    var found := FindProduct(st, f, barcode);
    found.Some? && NonEmpty(found.value)
  }

  /** `cadastrar_produto` as written: it asks whether the product exists only
      AFTER saving it, so a successful save reports "Atualização" even for a
      barcode that was never registered. */
  function RegisterProductAsWritten(st: Store, f: Faults, actor: Value, data: Fields): (r: (Store, RegisterResponse))
    ensures r.1.RegisterInvalid? <==> !Truthy(Get(data, "codigoBarra")) || !Truthy(Get(data, "nome"))
    ensures r.1.Registered? <==>
      !r.1.RegisterInvalid? && SaveOrUpdateProduct(st, f, data["cadastrado_por" := actor]).result.Saved?
    ensures r.1.Registered? ==>
      && r.0.products == SaveOrUpdateProduct(st, f, data["cadastrado_por" := actor]).store.products
      && r.0.products[Get(data, "codigoBarra").s]["cadastrado_por"] == actor
    ensures r.1.Registered? ==> r.1.action in {"Atualização", "Cadastro"}
    ensures r.1.RegisterInvalid? ==> r.0.products == st.products
    ensures r.1.RegisterFailed? ==> r.0.products == st.products && !r.1.result.Saved?
    ensures r.0.sales == st.sales && r.0.users == st.users
  {
    var barcode := Get(data, "codigoBarra");
    if !Truthy(barcode) || !Truthy(Get(data, "nome")) then
      (LogAudit(st, f, actor, "Produto", "Erro Validação", Text("Dados de cadastro incompletos.")), RegisterInvalid)
    else
      var saved := SaveOrUpdateProduct(st, f, data["cadastrado_por" := actor]);
      if saved.result.Saved? then
        var action := if Exists(saved.store, f, barcode) then "Atualização" else "Cadastro";
        (LogAudit(saved.store, f, actor, "Produto", action, Format("Produto {} - {}", [barcode, Get(data, "nome")])),
         Registered(action))
      else
        (LogAudit(saved.store, f, actor, "Produto", "Erro DB", SaveFailureDetail(barcode, saved.result)),
         RegisterFailed(saved.result))
  }

  /** `cadastrar_produto` with the existence check moved before the save,
      so the audit action tells a new registration from an update. */
  function RegisterProduct(st: Store, f: Faults, actor: Value, data: Fields): (r: (Store, RegisterResponse))
    ensures r.1.RegisterInvalid? <==> !Truthy(Get(data, "codigoBarra")) || !Truthy(Get(data, "nome"))
    ensures r.1.Registered? <==>
      !r.1.RegisterInvalid? && SaveOrUpdateProduct(st, f, data["cadastrado_por" := actor]).result.Saved?
    ensures r.1.Registered? ==> (r.1.action == "Atualização" <==> Exists(st, f, Get(data, "codigoBarra")))
    ensures r.1.Registered? ==>
      && r.0.products == SaveOrUpdateProduct(st, f, data["cadastrado_por" := actor]).store.products
      && r.0.products[Get(data, "codigoBarra").s]["cadastrado_por"] == actor
    ensures r.1.Registered? ==> r.1.action in {"Atualização", "Cadastro"}
    ensures r.1.RegisterInvalid? ==> r.0.products == st.products
    ensures r.1.RegisterFailed? ==> r.0.products == st.products && !r.1.result.Saved?
    ensures r.0.sales == st.sales && r.0.users == st.users
  {
    var barcode := Get(data, "codigoBarra");
    if !Truthy(barcode) || !Truthy(Get(data, "nome")) then
      (LogAudit(st, f, actor, "Produto", "Erro Validação", Text("Dados de cadastro incompletos.")), RegisterInvalid)
    else
      var existed := Exists(st, f, barcode);
      var saved := SaveOrUpdateProduct(st, f, data["cadastrado_por" := actor]);
      if saved.result.Saved? then
        var action := if existed then "Atualização" else "Cadastro";
        (LogAudit(saved.store, f, actor, "Produto", action, Format("Produto {} - {}", [barcode, Get(data, "nome")])),
         Registered(action))
      else
        (LogAudit(saved.store, f, actor, "Produto", "Erro DB", SaveFailureDetail(barcode, saved.result)),
         RegisterFailed(saved.result))
  }

  datatype LookupResponse = LookupInvalid | ProductFound(product: Fields) | ProductNotFound
  {
    function HttpStatus(): int {
      match this
      case LookupInvalid => 400
      case ProductFound(_) => 200
      case ProductNotFound => 404
    }
  }

  /** `buscar_produto`: a read-only lookup. */
  function LookupProduct(st: Store, f: Faults, barcode: string): (r: LookupResponse)
    ensures r.LookupInvalid? <==> barcode == ""
    ensures r.ProductFound? <==>
      barcode != "" && st.connected && barcode !in f.productLookupFails
      && barcode in st.products && NonEmpty(st.products[barcode])
    ensures r.ProductFound? ==> r.product == st.products[barcode]
  {
    if barcode == "" then LookupInvalid
    else
      var found := FindProduct(st, f, Str(barcode));
      if found.Some? && NonEmpty(found.value) then ProductFound(found.value) else ProductNotFound
  }

  // ---------------------------------------------------------------------
  // Permission-gated routes
  // ---------------------------------------------------------------------

  datatype GatedResponse = AccessDenied | AccessGranted
  {
    function HttpStatus(): int {
      if AccessDenied? then 403 else 200
    }
  }

  /** `listar_usuarios`: Admin or Gerente only; a refusal is audited. The
      user list it returns is fixed sample data and is not represented. */
  function ListUsers(st: Store, f: Faults, actor: Value, permissao: Value): (r: (Store, GatedResponse))
    ensures r.1.AccessGranted? <==> permissao == Str("Admin") || permissao == Str("Gerente")
    ensures r.1.AccessGranted? ==> r.0 == st
    ensures r.1.AccessDenied? ==>
      && r.0.products == st.products && r.0.sales == st.sales
      && r.0.audit == st.audit + (if Audits(st, f) then
           [AuditRecord(actor, "RETA", "Acesso Negado", Text("Tentativa de listar usuários sem permissão Admin/Gerente."))]
           else [])
  {
    if !Elevated(permissao) then
      (LogAudit(st, f, actor, "RETA", "Acesso Negado", Text("Tentativa de listar usuários sem permissão Admin/Gerente.")),
       AccessDenied)
    else (st, AccessGranted)
  }

  /** `get_kpis`: Admin or Gerente only; a refusal is not audited. The
      figures it returns are random sample data and are not represented. */
  function Kpis(permissao: Value): (r: GatedResponse)
    ensures r.AccessGranted? <==> permissao == Str("Admin") || permissao == Str("Gerente")
  {
    if Elevated(permissao) then AccessGranted else AccessDenied
  }

  // ---------------------------------------------------------------------
  // Goods receiving
  // ---------------------------------------------------------------------

  /** The stock a receipt writes for an item: the item's own `estoque_atual`
      if it carries one, otherwise the stock found (0 when the product is
      missing, empty, or has no stock field) plus the quantity received.
      None stands for the TypeError of `+` on incompatible operands. */
  function StockAfterReceipt(found: Option<Fields>, item: Fields): Option<Value> {
    var stock := if found.Some? && NonEmpty(found.value) then GetOr(found.value, "estoque_atual", Int(0)) else Int(0);
    match Add(stock, Get(item, "quantidade"))
    case None => None
    case Some(v) => Some(if "estoque_atual" in item then item["estoque_atual"] else v)
  }

  /** The payload a receipt merges into the product document:
      `{'estoque_atual': ..., 'custoLiquido': ..., 'last_updated': ...} | item`. */
  function ReceiptPayload(stock: Value, item: Fields): Fields {
    map["estoque_atual" := stock, "custoLiquido" := Get(item, "custo_unitario"), "last_updated" := ServerTimestamp] + item
  }

  /** One pass of the receiving loop. Items without a truthy barcode are
      skipped; a failed write is ignored; only the `+` can raise. */
  function ReceiveItem(st: Store, f: Faults, item: Fields): (r: Step)
    ensures r.store.connected == st.connected && r.store.sales == st.sales
    ensures r.store.users == st.users && r.store.audit == st.audit
    ensures r.raised.Some? ==> r.raised == Some(TypeError) && r.store == st
    ensures !Truthy(Get(item, "codigoBarra")) ==> r == Step(st, None)
    ensures Truthy(Get(item, "codigoBarra")) ==>
      (r.raised.None? <==> StockAfterReceipt(FindProduct(st, f, Get(item, "codigoBarra")), item).Some?)
    ensures forall k :: k in st.products && Get(item, "codigoBarra") != Str(k) ==>
      k in r.store.products && r.store.products[k] == st.products[k]
    ensures forall k :: k in r.store.products && k !in st.products ==> Get(item, "codigoBarra") == Str(k)
  {
    var barcode := Get(item, "codigoBarra");
    if !Truthy(barcode) then Step(st, None)
    else
      var found := FindProduct(st, f, barcode);
      var stock := if found.Some? && NonEmpty(found.value) then GetOr(found.value, "estoque_atual", Int(0)) else Int(0);
      match Add(stock, Get(item, "quantidade"))
      case None => Step(st, Some(TypeError))
      case Some(sum) => Step(SaveOrUpdateProduct(st, f, ReceiptPayload(sum, item)).store, None)
  }

  /** A received item with a string barcode whose write goes through ends
      up with the computed stock, the invoice's unit cost as `custoLiquido`
      (unless the item carries its own), and a fresh stamp. */
  lemma ReceiveItemWrites(st: Store, f: Faults, item: Fields)
    requires st.connected
    requires Get(item, "codigoBarra").Str? && Truthy(Get(item, "codigoBarra"))
    requires Get(item, "codigoBarra").s !in f.productWriteFails
    requires ReceiveItem(st, f, item).raised.None?
    ensures var b := Get(item, "codigoBarra").s;
      && b in ReceiveItem(st, f, item).store.products
      && var doc := ReceiveItem(st, f, item).store.products[b];
      && "estoque_atual" in doc
      && doc["estoque_atual"] == StockAfterReceipt(FindProduct(st, f, Get(item, "codigoBarra")), item).value
      && "custoLiquido" in doc
      && doc["custoLiquido"] == (if "custoLiquido" in item then item["custoLiquido"] else Get(item, "custo_unitario"))
      && doc["last_updated"] == ServerTimestamp
  {
    var barcode := Get(item, "codigoBarra");
    var found := FindProduct(st, f, barcode);
    var stock := if found.Some? && NonEmpty(found.value) then GetOr(found.value, "estoque_atual", Int(0)) else Int(0);
    var sum := Add(stock, Get(item, "quantidade")).value;
    var payload := ReceiptPayload(sum, item);
    assert Get(payload, "codigoBarra") == barcode;
    var saved := SaveOrUpdateProduct(st, f, payload);
    assert saved.result.Saved?;
    assert ReceiveItem(st, f, item).store == saved.store;
    assert "estoque_atual" in payload && payload["estoque_atual"] == StockAfterReceipt(found, item).value;
  }

  /** The receiving loop never reads the audit trail: running it on a store
      with a different trail gives the same products and the same outcome. */
  lemma {:induction false} ReceiveItemsIgnoresAudit(st: Store, f: Faults, items: seq<Fields>, trail: seq<AuditRecord>)
    ensures ReceiveItems(st.(audit := trail), f, items)
         == ReceiveItems(st, f, items).(store := ReceiveItems(st, f, items).store.(audit := trail))
    decreases |items|
  {
    if |items| > 0 {
      var first := ReceiveItem(st, f, items[0]);
      var first' := ReceiveItem(st.(audit := trail), f, items[0]);
      assert first' == first.(store := first.store.(audit := trail));
      if first.raised.None? {
        ReceiveItemsIgnoresAudit(first.store, f, items[1..], trail);
        assert first.store.(audit := trail) == first'.store;
      }
    }
  }

  /** The receiving loop; an exception ends it (and, being outside any
      `try`, the whole request). */
  function ReceiveItems(st: Store, f: Faults, items: seq<Fields>): (r: Step)
    ensures r.store.connected == st.connected && r.store.sales == st.sales
    ensures r.store.users == st.users && r.store.audit == st.audit
    ensures r.raised.Some? ==> r.raised == Some(TypeError)
    ensures forall k :: k in st.products && Untouched(k, items) ==>
      k in r.store.products && r.store.products[k] == st.products[k]
    ensures forall k :: k in r.store.products && k !in st.products ==> !Untouched(k, items)
    decreases |items|
  {
    if |items| == 0 then Step(st, None)
    else
      var first := ReceiveItem(st, f, items[0]);
      if first.raised.Some? then first
      else ReceiveItems(first.store, f, items[1..])
  }

  datatype ReceiptRequest = ReceiptRequest(nfNumero: Value, items: seq<Fields>, total: Value)

  datatype ReceiptResponse = ReceiptInvalid | ReceiptConfirmed | ReceiptCrashed(error: Exc)
  {
    /** A crash is an exception escaping the handler: the framework answers 500. */
    function HttpStatus(): int {
      match this
      case ReceiptInvalid => 400
      case ReceiptConfirmed => 200
      case ReceiptCrashed(_) => 500
    }
  }

  function ConfirmedEntry(actor: Value, req: ReceiptRequest): AuditRecord {
    AuditRecord(actor, "Recebimento", "Confirmação NF", Format("NF {} confirmada.", [req.nfNumero]))
  }

  function TitleEntry(actor: Value, req: ReceiptRequest): AuditRecord {
    AuditRecord(actor, "Financeiro", "Título Gerado", Format("NF {} - R$ {}", [req.nfNumero, req.total]))
  }

  /** `confirmar_recebimento`. */
  function ConfirmReceipt(st: Store, f: Faults, actor: Value, req: ReceiptRequest): (r: (Store, ReceiptResponse))
    ensures r.1.ReceiptInvalid? <==> !Truthy(req.nfNumero) || |req.items| == 0
    ensures r.1.ReceiptInvalid? ==>
      r.0.products == st.products &&
      r.0.audit == st.audit + (if Audits(st, f) then
        [AuditRecord(actor, "Recebimento", "Erro Validação", Text("Dados de NF incompletos."))] else [])
    ensures r.1.ReceiptCrashed? ==> r.1.error == TypeError
    ensures r.1.ReceiptConfirmed? <==>
      Truthy(req.nfNumero) && |req.items| > 0 && (!st.connected || ReceiveItems(st, f, req.items).raised.None?)
    ensures r.1.ReceiptConfirmed? && Audits(st, f) ==>
      r.0.audit == st.audit + [ConfirmedEntry(actor, req), TitleEntry(actor, req)]
    ensures r.1.ReceiptCrashed? && Audits(st, f) ==> r.0.audit == st.audit + [ConfirmedEntry(actor, req)]
    ensures r.0.sales == st.sales && r.0.users == st.users && r.0.connected == st.connected
    ensures forall k :: k in st.products && Untouched(k, req.items) ==> k in r.0.products && r.0.products[k] == st.products[k]
    ensures Truthy(req.nfNumero) && |req.items| > 0 && st.connected ==>
      r.0.products == ReceiveItems(st, f, req.items).store.products
    ensures !st.connected ==> r.0.products == st.products
  {
    if !Truthy(req.nfNumero) || |req.items| == 0 then
      (LogAudit(st, f, actor, "Recebimento", "Erro Validação", Text("Dados de NF incompletos.")), ReceiptInvalid)
    else
      var st1 := LogAudit(st, f, actor, "Recebimento", "Confirmação NF", Format("NF {} confirmada.", [req.nfNumero]));
      var loop := if st1.connected then ReceiveItems(st1, f, req.items) else Step(st1, None);
      ReceiveItemsIgnoresAudit(st, f, req.items, st1.audit);
      assert st.(audit := st1.audit) == st1;
      match loop.raised
      case Some(e) => (loop.store, ReceiptCrashed(e))
      case None =>
        (LogAudit(loop.store, f, actor, "Financeiro", "Título Gerado", Format("NF {} - R$ {}", [req.nfNumero, req.total])),
         ReceiptConfirmed)
  }

  // ---------------------------------------------------------------------
  // Sale closing: the per-item stock loop
  // ---------------------------------------------------------------------

  function ExitEntry(actor: Value, item: Fields): AuditRecord {
    AuditRecord(actor, "Estoque", "Saída Mercadoria",
                Format("Produto {} -{}un", [Get(item, "codigoBarra"), Get(item, "quantidade")]))
  }

  function ExitEntries(actor: Value, items: seq<Fields>): (es: seq<AuditRecord>)
    ensures |es| == |items|
    ensures forall i :: 0 <= i < |items| ==> es[i] == ExitEntry(actor, items[i])
  {
    if |items| == 0 then [] else [ExitEntry(actor, items[0])] + ExitEntries(actor, items[1..])
  }

  /** One pass of the sale's stock loop: look the product up; if a non-empty
      document is found, write `{'estoque_atual': max(0, old - qty)} | item`
      (the write's own failure is ignored); then log the goods exit, found
      or not. Only the subtraction can raise. */
  function SellItem(st: Store, f: Faults, actor: Value, item: Fields): (r: Step)
    ensures r.store.connected == st.connected && r.store.sales == st.sales && r.store.users == st.users
    ensures r.store.products.Keys == st.products.Keys
    ensures forall k :: k in st.products && Get(item, "codigoBarra") != Str(k) ==> r.store.products[k] == st.products[k]
    ensures r.raised.Some? ==> r.raised == Some(TypeError) && r.store == st
    ensures r.raised.None? && Audits(st, f) ==> r.store.audit == st.audit + [ExitEntry(actor, item)]
    ensures r.raised.None? && !Audits(st, f) ==> r.store.audit == st.audit
    ensures st.audit <= r.store.audit
    ensures var found := FindProduct(st, f, Get(item, "codigoBarra"));
      && (found.None? || !NonEmpty(found.value) ==> r.raised.None? && r.store.products == st.products)
      && (found.Some? && NonEmpty(found.value) ==>
            (r.raised.None? <==> StockAfterSale(found.value, item).Some?))
      && (found.Some? && NonEmpty(found.value) && r.raised.None? && Get(item, "codigoBarra").s !in f.productWriteFails ==>
            && "estoque_atual" in r.store.products[Get(item, "codigoBarra").s]
            && r.store.products[Get(item, "codigoBarra").s]["estoque_atual"] == StockAfterSale(found.value, item).value)
    ensures StockSound(st.products) && StockOk(item) ==> StockSound(r.store.products)
  {
    var barcode := Get(item, "codigoBarra");
    var qty := Get(item, "quantidade");
    var found := FindProduct(st, f, barcode);
    if found.Some? && NonEmpty(found.value) then
      match Sub(GetOr(found.value, "estoque_atual", Int(0)), qty)
      case None => Step(st, Some(TypeError))
      case Some(d) =>
        var saved := SaveOrUpdateProduct(st, f, map["estoque_atual" := Int(FloorAtZero(d))] + item);
        Step(LogAudit(saved.store, f, actor, "Estoque", "Saída Mercadoria",
                      Format("Produto {} -{}un", [barcode, qty])), None)
    else
      Step(LogAudit(st, f, actor, "Estoque", "Saída Mercadoria", Format("Produto {} -{}un", [barcode, qty])), None)
  }

  /** The whole stock loop of `fechar_venda`; the first exception ends it. */
  function SellItems(st: Store, f: Faults, actor: Value, items: seq<Fields>): (r: Step)
    ensures r.store.connected == st.connected && r.store.sales == st.sales && r.store.users == st.users
    ensures r.store.products.Keys == st.products.Keys
    ensures forall k :: k in st.products && Untouched(k, items) ==> r.store.products[k] == st.products[k]
    ensures r.raised.Some? ==> r.raised == Some(TypeError)
    ensures r.raised.None? && Audits(st, f) ==> r.store.audit == st.audit + ExitEntries(actor, items)
    ensures !Audits(st, f) ==> r.store.audit == st.audit
    ensures st.audit <= r.store.audit
    ensures StockSound(st.products) && (forall i :: 0 <= i < |items| ==> StockOk(items[i])) ==>
      StockSound(r.store.products)
    decreases |items|
  {
    if |items| == 0 then Step(st, None)
    else
      var first := SellItem(st, f, actor, items[0]);
      if first.raised.Some? then first
      else SellItems(first.store, f, actor, items[1..])
  }

  // ---------------------------------------------------------------------
  // Sale closing: the handler
  // ---------------------------------------------------------------------

  /** The fields of the sale request the handler reads itself. Its
      `dados_pagamento` only travels to the gateway, whose answer is a
      parameter of the handler. */
  datatype SaleRequest = SaleRequest(items: seq<Fields>, total: Value)

  datatype SaleResponse =
    | SaleInvalid
    | PaymentDeclined
    | SaleClosed(saleId: string, chaveNfe: Value)
    | SaleCrashed(saleId: string, error: Exc)
  {
    function HttpStatus(): int {
      match this
      case SaleInvalid => 400
      case PaymentDeclined => 402
      case SaleClosed(_, _) => 200
      case SaleCrashed(_, _) => 500
    }
  }

  /** The sale document first written, with status APROVADA. */
  function InitialSale(id: string, actor: Value, req: SaleRequest, transactionId: Value): Sale {
    Sale(id, actor, req.total, req.items, Aprovada, transactionId, None)
  }

  /** `nfe_result.get('chave_acesso', 'Contingência')`. */
  function ChaveNfe(fiscal: FiscalOutcome): Value {
    match fiscal
    case Authorized(key) => key
    case NotAuthorized(Some(key)) => key
    case _ => Str("Contingência")
  }

  /** The fiscal step: log, then update the sale document — key and
      FINALIZADA on authorisation, CONTINGÊNCIA otherwise. */
  function IssueFiscal(st: Store, f: Faults, actor: Value, id: string, fiscal: FiscalOutcome): (r: Step)
    requires id in st.sales
    ensures r.store.connected == st.connected && r.store.products == st.products && r.store.users == st.users
    ensures r.store.sales.Keys == st.sales.Keys
    ensures forall k :: k in st.sales && k != id ==> r.store.sales[k] == st.sales[k]
    ensures r.raised.None? <==> !fiscal.FiscalRaised? && !f.saleUpdateFails
    ensures r.raised.None? && fiscal.Authorized? ==>
      r.store.sales[id] == st.sales[id].(status := Finalizada, nfeKey := Some(fiscal.accessKey))
    ensures r.raised.None? && fiscal.NotAuthorized? ==>
      r.store.sales[id] == st.sales[id].(status := Contingencia)
    ensures r.raised.Some? ==> r.store.sales == st.sales
    ensures st.audit <= r.store.audit
  {
    match fiscal
    case FiscalRaised(e) => Step(st, Some(e))
    case Authorized(key) =>
      var st1 := LogAudit(st, f, actor, "Fiscal", "NF-e Autorizada", Format("Chave: {}", [key]));
      if f.saleUpdateFails then Step(st1, Some(StoreFailure))
      else Step(st1.(sales := st1.sales[id := st1.sales[id].(nfeKey := Some(key), status := Finalizada)]), None)
    case NotAuthorized(_) =>
      var st1 := LogAudit(st, f, actor, "Fiscal", "NF-e Falha", Format("Venda {}", [Str(id)]));
      if f.saleUpdateFails then Step(st1, Some(StoreFailure))
      else Step(st1.(sales := st1.sales[id := st1.sales[id].(status := Contingencia)]), None)
  }

  /** The `try` block of `fechar_venda`: record the sale, run the stock loop,
      issue the fiscal document. With no database handle the first write
      raises AttributeError on None. */
  function RecordAndFulfil(st: Store, f: Faults, actor: Value, sale: Sale, fiscal: FiscalOutcome): (r: Step)
    ensures r.store.connected == st.connected && r.store.users == st.users
    ensures r.raised.None? ==> st.connected && !f.saleWriteFails
    ensures !st.connected || f.saleWriteFails ==> r.store == st
    ensures forall k :: k in st.sales && k != sale.id ==> k in r.store.sales && r.store.sales[k] == st.sales[k]
    ensures r.store.sales.Keys <= st.sales.Keys + {sale.id}
    ensures st.audit <= r.store.audit
  {
    if !st.connected then Step(st, Some(AttributeError("collection")))
    else if f.saleWriteFails then Step(st, Some(StoreFailure))
    else
      var st1 := st.(sales := st.sales[sale.id := sale]);
      var st2 := LogAudit(st1, f, actor, "PDV", "Venda Registrada", Format("ID: {}", [Str(sale.id)]));
      var sold := SellItems(st2, f, actor, sale.items);
      if sold.raised.Some? then sold
      else IssueFiscal(sold.store, f, actor, sale.id, fiscal)
  }

  /** `fechar_venda`. */
  function CloseSale(
    st: Store, f: Faults, actor: Value, req: SaleRequest,
    gateway: GatewayOutcome, now: Now, suffix: Suffix, fiscal: FiscalOutcome): (r: (Store, SaleResponse))
    ensures r.1.HttpStatus() == 400 <==> |req.items| == 0 || !Truthy(req.total)
    ensures r.1.HttpStatus() == 402 <==>
      |req.items| > 0 && Truthy(req.total) && ProcessPayment(gateway).Denied?
    ensures r.1.HttpStatus() in {200, 500} ==> r.1.saleId == SaleId(now, suffix)
    ensures r.1.HttpStatus() == 402 ==> r.0 == st
    ensures forall k :: k in st.sales && k != SaleId(now, suffix) ==> k in r.0.sales && r.0.sales[k] == st.sales[k]
    ensures r.0.users == st.users && r.0.connected == st.connected
    ensures r.1.HttpStatus() in {200, 500} ==> ProcessPayment(gateway).Approved?
    ensures |req.items| > 0 && Truthy(req.total) && ProcessPayment(gateway).Approved? ==>
      var body := RecordAndFulfil(st, f, actor,
                    InitialSale(SaleId(now, suffix), actor, req, ProcessPayment(gateway).transactionId), fiscal);
      && (r.1.HttpStatus() == 200 <==> body.raised.None?)
      && (r.1.SaleClosed? ==> r.0 == body.store)
      && (r.1.SaleCrashed? ==> body.raised == Some(r.1.error))
      && (r.1.SaleCrashed? && Audits(st, f) ==>
            r.0.audit == body.store.audit
                         + [AuditRecord(actor, "PDV", "Erro Crítico", FormatError("Venda {} falhou: {}", [Str(r.1.saleId)], r.1.error))])
    ensures st.audit <= r.0.audit
  {
    if |req.items| == 0 || !Truthy(req.total) then
      (LogAudit(st, f, actor, "PDV", "Erro Validação", Text("Dados de venda incompletos.")), SaleInvalid)
    else
      var payment := ProcessPayment(gateway);
      if payment.Denied? then (st, PaymentDeclined)
      else
        var id := SaleId(now, suffix);
        var body := RecordAndFulfil(st, f, actor, InitialSale(id, actor, req, payment.transactionId), fiscal);
        match body.raised
        case Some(e) =>
          (LogAudit(body.store, f, actor, "PDV", "Erro Crítico", FormatError("Venda {} falhou: {}", [Str(id)], e)),
           SaleCrashed(id, e))
        case None => (body.store, SaleClosed(id, ChaveNfe(fiscal)))
  }

  /** A cart with no items or a falsy total (missing or 0 — a negative total
      passes) is refused with 400 before the gateway is called: only the
      validation audit entry is added. */
  lemma CloseSaleValidation(
    st: Store, f: Faults, actor: Value, req: SaleRequest,
    gateway: GatewayOutcome, now: Now, suffix: Suffix, fiscal: FiscalOutcome)
    requires |req.items| == 0 || !Truthy(req.total)
    ensures var r := CloseSale(st, f, actor, req, gateway, now, suffix, fiscal);
      && r.1 == SaleInvalid
      && r.0.products == st.products && r.0.sales == st.sales
      && r.0.audit == st.audit + (if Audits(st, f) then
           [AuditRecord(actor, "PDV", "Erro Validação", Text("Dados de venda incompletos."))] else [])
      && (forall other: GatewayOutcome :: CloseSale(st, f, actor, req, other, now, suffix, fiscal) == r)
  {
  }
}

=== FILE: firestore_service.dfy ===
/**
 The document store behind the backend, as an immutable value: the
 `produtos`, `vendas` and `usuarios` collections, the append-only
 `auditoria_logs` collection, and whether a database handle exists at all.
 Store exceptions are not random here: a `Faults` value says, for one
 request, which reads and writes the store rejects.
 */
module FirestoreService {
  import opened PyValues

  /** The text of an audit entry. Python's f-string formatting is kept
      abstract: the template and the values spliced into it are recorded. */
  datatype Detail =
    | Text(text: string)
    | Format(template: string, args: seq<Value>)
    | FormatError(template: string, args: seq<Value>, error: Exc)

  datatype AuditRecord = AuditRecord(actor: Value, area: string, action: string, detail: Detail)

  /** The `status` strings written to a sale document: APROVADA,
      FINALIZADA and CONTINGÊNCIA. */
  datatype SaleStatus = Aprovada | Finalizada | Contingencia

  /** A document of the `vendas` collection. Its `timestamp` field is always
      the server-timestamp marker and is not represented. */
  datatype Sale = Sale(
    id: string,
    operator: Value,
    total: Value,
    items: seq<Fields>,
    status: SaleStatus,
    transactionId: Value,
    nfeKey: Option<Value>)

  datatype Store = Store(
    connected: bool,
    products: map<string, Fields>,
    sales: map<string, Sale>,
    users: map<string, Fields>,
    audit: seq<AuditRecord>)

  /** Which store operations raise during one request. */
  datatype Faults = Faults(
    auditRejects: bool,
    productLookupFails: set<string>,
    productWriteFails: set<string>,
    userLookupFails: set<string>,
    saleWriteFails: bool,
    saleUpdateFails: bool)

  const NoFaults := Faults(false, {}, {}, {}, false, false)

  /** The document id a value names: only a non-empty string names one;
      every other value makes the driver raise (or, for None, invent a
      fresh id that names no existing document). */
  function DocId(v: Value): (id: Option<string>)
    ensures id.Some? <==> v.Str? && v.s != ""
    ensures id.Some? ==> id.value == v.s
  {
    if v.Str? && v.s != "" then Some(v.s) else None
  }

  /** `log_auditoria`: appends one record when a database exists and the
      write succeeds; otherwise it prints a warning and returns. Never raises. */
  function LogAudit(st: Store, f: Faults, actor: Value, area: string, action: string, detail: Detail): (st': Store)
    ensures st'.connected == st.connected && st'.products == st.products
    ensures st'.sales == st.sales && st'.users == st.users
    ensures st.connected && !f.auditRejects ==> st'.audit == st.audit + [AuditRecord(actor, area, action, detail)]
    ensures !st.connected || f.auditRejects ==> st'.audit == st.audit
  {
    if st.connected && !f.auditRejects then
      st.(audit := st.audit + [AuditRecord(actor, area, action, detail)])
    else st
  }

  /** Whether an audit write in this request reaches the store. */
  predicate Audits(st: Store, f: Faults) {
    st.connected && !f.auditRejects
  }

  datatype SaveResult = Saved | NotConnected | MissingBarcode | WriteRaised(error: Exc)
  {
    /** The message returned next to the success flag, for the cases whose
        text is fixed (a raised exception's text is not modelled). */
    function FixedMessage(): Option<string> {
      match this
      case Saved => Some("Produto salvo com sucesso.")
      case NotConnected => Some("Banco de dados não conectado.")
      case MissingBarcode => Some("Código de Barras ausente.")
      case WriteRaised(_) => None
    }
  }

  datatype SaveOutcome = SaveOutcome(store: Store, result: SaveResult)

  /** What a merge-write (`set(..., merge=True)`) leaves in a document:
      fields of `payload` win, fields it does not mention are kept. */
  function Merge(prev: Fields, payload: Fields): (doc: Fields)
    ensures doc.Keys == prev.Keys + payload.Keys
    ensures forall k :: k in payload ==> doc[k] == payload[k]
    ensures forall k :: k in prev && k !in payload ==> doc[k] == prev[k]
  {
    prev + payload
  }

  /** The document currently stored under `id`, or `{}` when there is none. */
  function Current(st: Store, id: string): Fields {
    if id in st.products then st.products[id] else map[]
  }

  /** `save_or_update_product`: merge-upsert keyed by `codigoBarra`, with
      `last_updated` forced to the server timestamp. Failures are returned,
      never raised, and leave the store unchanged. */
  function SaveOrUpdateProduct(st: Store, f: Faults, payload: Fields): (r: SaveOutcome)
    ensures r.result.Saved? <==>
      st.connected && Truthy(Get(payload, "codigoBarra")) && Get(payload, "codigoBarra").Str?
      && Get(payload, "codigoBarra").s !in f.productWriteFails
    ensures !st.connected ==> r.result == NotConnected
    ensures st.connected && !Truthy(Get(payload, "codigoBarra")) ==> r.result == MissingBarcode
    ensures !r.result.Saved? ==> r.store == st
    ensures r.store.connected == st.connected && r.store.sales == st.sales
    ensures r.store.users == st.users && r.store.audit == st.audit
    ensures r.result.Saved? ==>
      var id := Get(payload, "codigoBarra").s;
      && r.store.products.Keys == st.products.Keys + {id}
      && (forall k :: k in st.products && k != id ==> r.store.products[k] == st.products[k])
      && r.store.products[id].Keys == Current(st, id).Keys + payload.Keys + {"last_updated"}
      && r.store.products[id]["last_updated"] == ServerTimestamp
      && (forall k :: k in payload && k != "last_updated" ==> r.store.products[id][k] == payload[k])
      && (forall k :: k in Current(st, id) && k !in payload && k != "last_updated" ==>
            r.store.products[id][k] == Current(st, id)[k])
  {
    if !st.connected then SaveOutcome(st, NotConnected)
    else
      var barcode := Get(payload, "codigoBarra");
      if !Truthy(barcode) then SaveOutcome(st, MissingBarcode)
      else
        var data := payload["last_updated" := ServerTimestamp];
        if !barcode.Str? then SaveOutcome(st, WriteRaised(InvalidDocumentId(barcode)))
        else if barcode.s in f.productWriteFails then SaveOutcome(st, WriteRaised(StoreFailure))
        else
          var id := barcode.s;
          SaveOutcome(st.(products := st.products[id := Merge(Current(st, id), data)]), Saved)
  }

  /** `find_product_by_barcode`: the stored document, or None when there is
      no database, no such document, or the read raises. */
  function FindProduct(st: Store, f: Faults, barcode: Value): (r: Option<Fields>)
    ensures r.Some? <==>
      st.connected && DocId(barcode).Some? && DocId(barcode).value !in f.productLookupFails
      && DocId(barcode).value in st.products
    ensures r.Some? ==> r.value == st.products[barcode.s]
  {
    if !st.connected then None
    else match DocId(barcode)
      case None => None
      case Some(id) =>
        if id in f.productLookupFails then None
        else if id in st.products then Some(st.products[id])
        else None
  }

  /** `find_user_by_matricula`: the same lookup on the `usuarios` collection. */
  function FindUser(st: Store, f: Faults, matricula: Value): (r: Option<Fields>)
    ensures r.Some? <==>
      st.connected && DocId(matricula).Some? && DocId(matricula).value !in f.userLookupFails
      && DocId(matricula).value in st.users
    ensures r.Some? ==> r.value == st.users[matricula.s]
  {
    if !st.connected then None
    else match DocId(matricula)
      case None => None
      case Some(id) =>
        if id in f.userLookupFails then None
        else if id in st.users then Some(st.users[id])
        else None
  }

  /** A successful save followed by a find (that does not fail) returns the
      merged document: the old fields overridden by the payload, stamped. */
  lemma SaveThenFind(st: Store, f: Faults, payload: Fields)
    requires SaveOrUpdateProduct(st, f, payload).result.Saved?
    requires Get(payload, "codigoBarra").s !in f.productLookupFails
    ensures FindProduct(SaveOrUpdateProduct(st, f, payload).store, f, Get(payload, "codigoBarra"))
         == Some(Current(st, Get(payload, "codigoBarra").s) + payload + map["last_updated" := ServerTimestamp])
  {
    var id := Get(payload, "codigoBarra").s;
    var st' := SaveOrUpdateProduct(st, f, payload).store;
    var doc := st'.products[id];
    var expected := Current(st, id) + payload + map["last_updated" := ServerTimestamp];
    assert doc.Keys == expected.Keys;
    assert forall k :: k in doc ==> doc[k] == expected[k];
    assert doc == expected;
    assert DocId(Get(payload, "codigoBarra")) == Some(id);
    assert FindProduct(st', f, Get(payload, "codigoBarra")) == Some(doc);
  }

  /** Saving the same payload twice leaves the same store as saving it once. */
  lemma SaveIdempotent(st: Store, f: Faults, payload: Fields)
    ensures var once := SaveOrUpdateProduct(st, f, payload);
            SaveOrUpdateProduct(once.store, f, payload) == once
  {
    var once := SaveOrUpdateProduct(st, f, payload);
    if once.result.Saved? {
      var id := Get(payload, "codigoBarra").s;
      var data := payload["last_updated" := ServerTimestamp];
      assert Merge(Merge(Current(st, id), data), data) == Merge(Current(st, id), data);
    }
  }

  /** Every stored product carries the stamp that each save forces. */
  ghost predicate ProductsStamped(st: Store) {
    forall id :: id in st.products ==> "last_updated" in st.products[id] && st.products[id]["last_updated"] == ServerTimestamp
  }

  /** Saving keeps every stored product stamped, so no stored product
      document is ever empty (falsy) once saved. */
  lemma SaveKeepsStamped(st: Store, f: Faults, payload: Fields)
    requires ProductsStamped(st)
    ensures ProductsStamped(SaveOrUpdateProduct(st, f, payload).store)
  {
  }
}

=== FILE: integrations_service.dfy ===
/**
 The payment-gateway client and the fiscal-document (NF-e) issuer.
 The HTTP exchange with the gateway is an oracle: either a response with a
 status code and a JSON object body, or a `requests` exception (connection
 error, timeout, undecodable body).
 */
module IntegrationsService {
  import opened PyValues

  datatype GatewayOutcome =
    | Responded(httpStatus: int, body: Fields)
    | RequestFailed(error: string)

  /** Why a payment was refused. */
  datatype DenialReason =
    | GatewayMotivo(motivo: Value)       // the gateway's own `motivo` field
    | ConnectionError(error: string)     // a transport exception
    | HttpStatusError(httpStatus: int)   // `raise_for_status` on a 4xx/5xx reply

  /** The dict `processar_pagamento` returns: status `APROVADO` with a
      `transaction_id`, or status `NEGADO` with a `motivo`. */
  datatype PaymentResult =
    | Approved(transactionId: Value)
    | Denied(reason: DenialReason)

  /** `raise_for_status` raises exactly for client and server error codes. */
  predicate RaisesForStatus(httpStatus: int) {
    400 <= httpStatus < 600
  }

  /** `IntegrationsService.processar_pagamento`: maps every gateway outcome to
      an approval or a denial; it never raises. */
  function ProcessPayment(outcome: GatewayOutcome): (r: PaymentResult)
    ensures r.Approved? <==>
      outcome.Responded? && !RaisesForStatus(outcome.httpStatus)
      && Get(outcome.body, "status") == Str("APROVADO")
    ensures r.Approved? ==> r.transactionId == Get(outcome.body, "id")
    ensures outcome.RequestFailed? ==> r == Denied(ConnectionError(outcome.error))
    ensures outcome.Responded? && RaisesForStatus(outcome.httpStatus) ==>
      r == Denied(HttpStatusError(outcome.httpStatus))
    ensures outcome.Responded? && !RaisesForStatus(outcome.httpStatus) && !r.Approved? ==>
      r == Denied(GatewayMotivo(Get(outcome.body, "motivo")))
  {
    match outcome
    case RequestFailed(e) => Denied(ConnectionError(e))
    case Responded(code, body) =>
      if RaisesForStatus(code) then Denied(HttpStatusError(code))
      else if Get(body, "status") == Str("APROVADO") then Approved(Get(body, "id"))
      else Denied(GatewayMotivo(Get(body, "motivo")))
  }

  /** The outcome of issuing the fiscal document: status `AUTORIZADO` with an
      access key, any other status (possibly still carrying a
      `chave_acesso`), or an exception. */
  datatype FiscalOutcome =
    | Authorized(accessKey: Value)
    | NotAuthorized(keyIfAny: Option<Value>)
    | FiscalRaised(error: Exc)

  /** The client class shown has no `emitir_nfe` method: calling it raises
      AttributeError before any request is made. */
  const EmitNfeAsWritten: FiscalOutcome := FiscalRaised(AttributeError("emitir_nfe"))
}

=== FILE: py_values.dfy ===
/**
 The slice of Python's value semantics that the retail backend relies on:
 JSON-like scalar values, dictionaries of them, truthiness, `dict.get`,
 the `+` and `-` operators with their TypeError cases, and `str.split(' ')`.
 */
module PyValues {

  datatype Option<+T> = None | Some(value: T)

  /** A scalar as it arrives in a JSON body or sits in a stored document.
      `ServerTimestamp` is the store's opaque "stamp on write" marker. */
  datatype Value =
    | Null
    | Bool(b: bool)
    | Int(i: int)
    | Str(s: string)
    | ServerTimestamp

  /** An exception raised inside the backend or by a collaborator it calls. */
  datatype Exc =
    | TypeError                       // unsupported operand types for `+` or `-`
    | AttributeError(name: string)    // attribute or method missing on an object
    | InvalidDocumentId(id: Value)    // the store driver refuses a non-string document id
    | StoreFailure                    // a read or write the store itself rejected
    | RemoteFailure(message: string)  // raised by an external service or library

  /** A Python dict with string keys (a request body, a cart item, a document). */
  type Fields = map<string, Value>

  /** Python truthiness of a scalar. */
  predicate Truthy(v: Value) {
    match v
    case Null => false
    case Bool(b) => b
    case Int(i) => i != 0
    case Str(s) => s != ""
    case ServerTimestamp => true
  }

  /** Python truthiness of a dict: non-empty. */
  predicate NonEmpty(d: Fields) {
    |d| > 0
  }

  /** `d.get(k)`: the stored value, or None when the key is absent. */
  function Get(d: Fields, k: string): (v: Value)
    ensures k in d ==> v == d[k]
    ensures k !in d ==> v == Null
  {
    if k in d then d[k] else Null
  }

  /** `d.get(k, default)`: the default is used only for an ABSENT key,
      never for a key that is present with a falsy value. */
  function GetOr(d: Fields, k: string, default: Value): (v: Value)
    ensures k in d ==> v == d[k]
    ensures k !in d ==> v == default
  {
    if k in d then d[k] else default
  }

  /** The integer a value denotes in arithmetic (`bool` is a subclass of `int`). */
  function AsNumber(v: Value): Option<int> {
    match v
    case Int(i) => Some(i)
    case Bool(b) => Some(if b then 1 else 0)
    case _ => None
  }

  /** `a + b`; None stands for the TypeError Python raises. */
  function Add(a: Value, b: Value): (r: Option<Value>)
    ensures r.Some? <==> (AsNumber(a).Some? && AsNumber(b).Some?) || (a.Str? && b.Str?)
    ensures AsNumber(a).Some? && AsNumber(b).Some? ==> r == Some(Int(AsNumber(a).value + AsNumber(b).value))
    ensures a.Str? && b.Str? ==> r == Some(Str(a.s + b.s))
  {
    if a.Str? && b.Str? then Some(Str(a.s + b.s))
    else match (AsNumber(a), AsNumber(b))
      case (Some(x), Some(y)) => Some(Int(x + y))
      case _ => None
  }

  /** `a - b`; None stands for the TypeError Python raises (strings included). */
  function Sub(a: Value, b: Value): (r: Option<int>)
    ensures r.Some? <==> AsNumber(a).Some? && AsNumber(b).Some?
    ensures r.Some? ==> r.value == AsNumber(a).value - AsNumber(b).value
  {
    match (AsNumber(a), AsNumber(b))
    case (Some(x), Some(y)) => Some(x - y)
    case _ => None
  }

  /** `max(0, x)`. */
  function FloorAtZero(x: int): (r: nat)
    ensures r >= x
    ensures r == 0 || r == x
  {
    if x > 0 then x else 0
  }

  /** `s.split(sep)` for a single-character separator: every occurrence of
      `sep` ends a field, so adjacent separators give empty fields. */
  function Split(s: string, sep: char): (fields: seq<string>)
    ensures |fields| >= 1
    ensures forall i :: 0 <= i < |fields| ==> sep !in fields[i]
  {
    if |s| == 0 then [""]
    else
      var rest := Split(s[1..], sep);
      if s[0] == sep then [""] + rest
      else [[s[0]] + rest[0]] + rest[1..]
  }

  /** `sep.join(fields)`: the inverse of `Split`. */
  function Join(fields: seq<string>, sep: char): string
    requires |fields| >= 1
  {
    if |fields| == 1 then fields[0]
    else fields[0] + [sep] + Join(fields[1..], sep)
  }

  lemma JoinCons(head: string, tail: seq<string>, sep: char)
    requires |tail| >= 1
    ensures Join([head] + tail, sep) == head + [sep] + Join(tail, sep)
  {
    assert ([head] + tail)[1..] == tail;
  }

  /** Joining the fields of a split gives the original string back. */
  lemma {:induction false} SplitJoin(s: string, sep: char)
    ensures Join(Split(s, sep), sep) == s
  {
    if |s| == 0 {
    } else {
      var rest := Split(s[1..], sep);
      SplitJoin(s[1..], sep);
      if s[0] == sep {
        JoinCons("", rest, sep);
        assert s == [sep] + s[1..];
      } else {
        var fields := [[s[0]] + rest[0]] + rest[1..];
        if |rest| == 1 {
          assert Join(fields, sep) == [s[0]] + rest[0];
        } else {
          assert rest == [rest[0]] + rest[1..];
          JoinCons(rest[0], rest[1..], sep);
          JoinCons([s[0]] + rest[0], rest[1..], sep);
        }
        assert s == [s[0]] + s[1..];
      }
    }
  }

  /** A string that starts with `p + [sep]` splits with `p` as its first
      field (when `p` itself holds no separator), and its second field is
      the text after that separator up to the next one. */
  lemma {:induction false} SplitAfterPrefix(p: string, rest: string, sep: char)
    requires sep !in p
    ensures Split(p + [sep] + rest, sep)[0] == p
    ensures |Split(p + [sep] + rest, sep)| >= 2
    ensures Split(p + [sep] + rest, sep)[1] == Split(rest, sep)[0]
  {
    if |p| == 0 {
      assert p + [sep] + rest == [sep] + rest;
      assert ([sep] + rest)[1..] == rest;
    } else {
      var s := p + [sep] + rest;
      assert s[0] == p[0];
      assert s[1..] == p[1..] + [sep] + rest;
      SplitAfterPrefix(p[1..], rest, sep);
      assert p == [p[0]] + p[1..];
    }
  }

  /** The first field of a split is the longest separator-free prefix. */
  lemma {:induction false} SplitFirstField(s: string, sep: char)
    ensures Split(s, sep)[0] <= s
    ensures Split(s, sep)[0] == s || s[|Split(s, sep)[0]|] == sep
  {
    if |s| > 0 && s[0] != sep {
      SplitFirstField(s[1..], sep);
      assert s == [s[0]] + s[1..];
    }
  }
}

=== FILE: sale_ids.dfy ===
/**
 Sale identifiers: `VENDA_<YYYYMMDDHHMMSS>_<n>`, built from the wall clock
 at second resolution and a random suffix in [100, 999]. Both the clock
 reading and the suffix are parameters.
 */
module SaleIds {
  import opened PyValues

  datatype Clock = Clock(year: int, month: int, day: int, hour: int, minute: int, second: int)

  /** The readings for which `strftime('%Y%m%d%H%M%S')` yields 14 digits. */
  predicate ValidClock(c: Clock) {
    && 1000 <= c.year <= 9999
    && 1 <= c.month <= 12
    && 1 <= c.day <= 31
    && 0 <= c.hour <= 23
    && 0 <= c.minute <= 59
    && 0 <= c.second <= 59
  }

  type Now = c: Clock | ValidClock(c) witness Clock(2000, 1, 1, 0, 0, 0)

  /** `random.randint(100, 999)`: both ends included. */
  type Suffix = n: int | 100 <= n <= 999 witness 100

  function Pow10(w: nat): (p: nat)
    ensures p >= 1
  {
    if w == 0 then 1 else 10 * Pow10(w - 1)
  }

  predicate IsDigit(c: char) {
    '0' <= c <= '9'
  }

  predicate AllDigits(s: string) {
    forall i :: 0 <= i < |s| ==> IsDigit(s[i])
  }

  /** `n` written in decimal, zero-padded to exactly `width` digits. */
  function Decimal(n: nat, width: nat): (s: string)
    requires n < Pow10(width)
    ensures |s| == width
    ensures AllDigits(s)
  {
    if width == 0 then ""
    else Decimal(n / 10, width - 1) + [('0' as int + n % 10) as char]
  }

  /** The number a string of decimal digits denotes. */
  function ParseDecimal(s: string): nat
    requires AllDigits(s)
  {
    if |s| == 0 then 0
    else 10 * ParseDecimal(s[..|s| - 1]) + (s[|s| - 1] as int - '0' as int)
  }

  /** Parsing a padded decimal gives the number back. */
  lemma {:induction false} ParseDecimalInverse(n: nat, width: nat)
    requires n < Pow10(width)
    ensures ParseDecimal(Decimal(n, width)) == n
  {
    if width > 0 {
      var s := Decimal(n, width);
      assert s[..|s| - 1] == Decimal(n / 10, width - 1);
      ParseDecimalInverse(n / 10, width - 1);
    }
  }

  /** `strftime('%Y%m%d%H%M%S')`. */
  function Timestamp(c: Now): (s: string)
    ensures |s| == 14 && AllDigits(s)
  {
    Decimal(c.year, 4) + Decimal(c.month, 2) + Decimal(c.day, 2)
    + Decimal(c.hour, 2) + Decimal(c.minute, 2) + Decimal(c.second, 2)
  }

  const SalePrefix := "VENDA_"

  /** The identifier `fechar_venda` gives a sale. */
  function SaleId(c: Now, n: Suffix): (id: string)
    ensures |id| == 24
    ensures id[..6] == SalePrefix && id[20] == '_'
    ensures AllDigits(id[6..20]) && AllDigits(id[21..])
  {
    var id := SalePrefix + Timestamp(c) + "_" + Decimal(n, 3);
    assert id[6..20] == Timestamp(c);
    assert id[21..] == Decimal(n, 3);
    id
  }

  /** Reads the clock reading and suffix back out of a sale identifier. */
  function ParseSaleId(id: string): Option<(Clock, int)> {
    if |id| == 24 && id[..6] == SalePrefix && id[20] == '_'
       && (forall i :: 6 <= i < 24 && i != 20 ==> IsDigit(id[i])) then
      Some((Clock(ParseDecimal(id[6..10]), ParseDecimal(id[10..12]), ParseDecimal(id[12..14]),
                  ParseDecimal(id[14..16]), ParseDecimal(id[16..18]), ParseDecimal(id[18..20])),
            ParseDecimal(id[21..])))
    else None
  }

  /** A sale identifier determines the clock reading and the suffix it was
      made from. */
  lemma SaleIdRoundTrip(c: Now, n: Suffix)
    ensures ParseSaleId(SaleId(c, n)) == Some((c, n))
  {
    var id := SaleId(c, n);
    assert id[6..10] == Decimal(c.year, 4);
    assert id[10..12] == Decimal(c.month, 2);
    assert id[12..14] == Decimal(c.day, 2);
    assert id[14..16] == Decimal(c.hour, 2);
    assert id[16..18] == Decimal(c.minute, 2);
    assert id[18..20] == Decimal(c.second, 2);
    assert id[21..] == Decimal(n, 3);
    ParseDecimalInverse(c.year, 4);
    ParseDecimalInverse(c.month, 2);
    ParseDecimalInverse(c.day, 2);
    ParseDecimalInverse(c.hour, 2);
    ParseDecimalInverse(c.minute, 2);
    ParseDecimalInverse(c.second, 2);
    ParseDecimalInverse(n, 3);
  }

  /** Two sales get the same identifier only when both the second and the
      random suffix coincide. */
  lemma SaleIdInjective(c1: Now, n1: Suffix, c2: Now, n2: Suffix)
    requires SaleId(c1, n1) == SaleId(c2, n2)
    ensures c1 == c2 && n1 == n2
  {
    SaleIdRoundTrip(c1, n1);
    SaleIdRoundTrip(c2, n2);
  }
}

=== FILE: stock_properties.dfy ===
/**
 Properties of goods receiving (`confirmar_recebimento`) and of product
 registration (`cadastrar_produto`).
 */
module StockProperties {
  import opened PyValues
  import opened FirestoreService
  import opened ErpRoutes
  import CheckoutProperties

  /** A received quantity `+` can add to an integer stock without raising,
      and that cannot take the stock below zero. */
  predicate QuantityOk(item: Fields) {
    AsNumber(Get(item, "quantidade")).Some? && AsNumber(Get(item, "quantidade")).value >= 0
  }

  /** A save whose payload has a sound stock field (or none) keeps every
      stored stock a non-negative integer. */
  lemma SaveKeepsStockSound(st: Store, f: Faults, payload: Fields)
    requires StockSound(st.products) && StockOk(payload)
    ensures StockSound(SaveOrUpdateProduct(st, f, payload).store.products)
  {
    var saved := SaveOrUpdateProduct(st, f, payload);
    if saved.result.Saved? {
      var id := Get(payload, "codigoBarra").s;
      var doc := saved.store.products[id];
      if "estoque_atual" in payload {
        assert doc["estoque_atual"] == payload["estoque_atual"];
      } else {
        assert "estoque_atual" in doc ==> "estoque_atual" in Current(st, id) && doc["estoque_atual"] == Current(st, id)["estoque_atual"];
      }
      assert StockOk(doc);
    }
  }

  /** One received item keeps every stored stock a non-negative integer and
      does not raise, when its quantity and its own stock field are sound. */
  lemma ReceiveItemKeepsStockSound(st: Store, f: Faults, item: Fields)
    requires StockSound(st.products)
    requires StockOk(item) && QuantityOk(item)
    ensures ReceiveItem(st, f, item).raised.None?
    ensures StockSound(ReceiveItem(st, f, item).store.products)
  {
    var b := Get(item, "codigoBarra");
    if Truthy(b) {
      var found := FindProduct(st, f, b);
      var stock := if found.Some? && NonEmpty(found.value) then GetOr(found.value, "estoque_atual", Int(0)) else Int(0);
      assert stock.Int? && stock.i >= 0;
      var sum := Add(stock, Get(item, "quantidade"));
      assert sum.Some? && sum.value.Int? && sum.value.i >= 0;
      var payload := ReceiptPayload(sum.value, item);
      assert StockOk(payload);
      SaveKeepsStockSound(st, f, payload);
      assert ReceiveItem(st, f, item).store == SaveOrUpdateProduct(st, f, payload).store;
    }
  }

  /** The receiving loop raises nothing and keeps stock sound when every
      item's quantity and own stock field are sound. */
  lemma {:induction false} ReceiveItemsKeepStockSound(st: Store, f: Faults, items: seq<Fields>)
    requires StockSound(st.products)
    requires forall i :: 0 <= i < |items| ==> StockOk(items[i]) && QuantityOk(items[i])
    ensures ReceiveItems(st, f, items).raised.None?
    ensures StockSound(ReceiveItems(st, f, items).store.products)
    decreases |items|
  {
    if |items| > 0 {
      ReceiveItemKeepsStockSound(st, f, items[0]);
      var first := ReceiveItem(st, f, items[0]);
      assert forall i :: 0 <= i < |items[1..]| ==> items[1..][i] == items[i + 1];
      ReceiveItemsKeepStockSound(first.store, f, items[1..]);
    }
  }

  /** With sound quantities, a receipt that passes validation always
      answers 200 (both audit entries written) and leaves every stock a
      non-negative integer. */
  lemma ConfirmReceiptSucceeds(st: Store, f: Faults, actor: Value, req: ReceiptRequest)
    requires Truthy(req.nfNumero) && |req.items| > 0
    requires StockSound(st.products)
    requires forall i :: 0 <= i < |req.items| ==> StockOk(req.items[i]) && QuantityOk(req.items[i])
    ensures ConfirmReceipt(st, f, actor, req).1 == ReceiptConfirmed
    ensures StockSound(ConfirmReceipt(st, f, actor, req).0.products)
  {
    ReceiveItemsKeepStockSound(st, f, req.items);
    var st1 := LogAudit(st, f, actor, "Recebimento", "Confirmação NF", Format("NF {} confirmada.", [req.nfNumero]));
    if st1.connected {
      ReceiveItemsIgnoresAudit(st, f, req.items, st1.audit);
      assert st.(audit := st1.audit) == st1;
    }
  }

  /** The route-level receipt: with a handle, a valid receipt leaves each
      item whose barcode no other item shares with the stock found before
      plus the quantity received, and the item's unit cost. */
  lemma ConfirmReceiptStock(st: Store, f: Faults, actor: Value, req: ReceiptRequest, j: nat)
    requires Truthy(req.nfNumero) && j < |req.items| && st.connected
    requires Get(req.items[j], "codigoBarra").Str? && Get(req.items[j], "codigoBarra").s != ""
    requires forall i :: 0 <= i < |req.items| && i != j ==> Get(req.items[i], "codigoBarra") != Get(req.items[j], "codigoBarra")
    requires Get(req.items[j], "codigoBarra").s !in f.productWriteFails
    requires StockSound(st.products) && ReceiptOk(req.items)
    ensures ConfirmReceipt(st, f, actor, req).1 == ReceiptConfirmed
    ensures ReceivedStock(FindProduct(st, f, Get(req.items[j], "codigoBarra")), ConfirmReceipt(st, f, actor, req).0.products,
                          Get(req.items[j], "codigoBarra").s, req.items[j])
  {
    ConfirmReceiptSucceeds(st, f, actor, req);
    ReceiveItemsStock(st, f, req.items, j);
  }

  /** A received item without a usable quantity (missing, a string, ...)
      for a truthy barcode raises outside any `try`: the request fails with
      500 after "Confirmação NF" was logged and before "Título Gerado". */
  lemma ReceiptWithoutQuantityCrashes(st: Store, f: Faults, actor: Value, nf: Value, b: string, total: Value)
    requires st.connected && Truthy(nf) && b != ""
    ensures var item := map["codigoBarra" := Str(b)];
      ConfirmReceipt(st, f, actor, ReceiptRequest(nf, [item], total)).1 == ReceiptCrashed(TypeError)
  {
    var item := map["codigoBarra" := Str(b)];
    var req := ReceiptRequest(nf, [item], total);
    var st1 := LogAudit(st, f, actor, "Recebimento", "Confirmação NF", Format("NF {} confirmada.", [nf]));
    assert Get(item, "quantidade") == Null;
    assert ReceiveItem(st1, f, item).raised == Some(TypeError);
    assert ReceiveItems(st1, f, req.items).raised == Some(TypeError);
  }

  /** A failed product read during receiving is taken for "no product": the
      stock written is 0 + quantidade, replacing whatever stock was stored. */
  lemma ReceiveAfterFailedReadResetsStock(st: Store, f: Faults, b: string, q: nat)
    requires st.connected && b != "" && b in f.productLookupFails && b !in f.productWriteFails
    ensures var item := map["codigoBarra" := Str(b), "quantidade" := Int(q)];
      && b in ReceiveItem(st, f, item).store.products
      && ReceiveItem(st, f, item).store.products[b]["estoque_atual"] == Int(q)
  {
    var item := map["codigoBarra" := Str(b), "quantidade" := Int(q)];
    assert FindProduct(st, f, Str(b)).None?;
    assert Get(item, "codigoBarra") == Str(b);
    ReceiveItemWrites(st, f, item);
  }

  /** Every received item has a sound quantity and no malformed stock of
      its own. */
  predicate ReceiptOk(items: seq<Fields>) {
    forall i :: 0 <= i < |items| ==> StockOk(items[i]) && QuantityOk(items[i])
  }

  /** Product `b` ended up (in `after`) with the stock and unit cost a
      receipt of `item` computes from what the lookup `found` returned. */
  ghost predicate ReceivedStock(found: Option<Fields>, after: map<string, Fields>, b: string, item: Fields) {
    && b in after
    && StockAfterReceipt(found, item).Some?
    && "estoque_atual" in after[b]
    && after[b]["estoque_atual"] == StockAfterReceipt(found, item).value
    && "custoLiquido" in after[b]
    && after[b]["custoLiquido"] == (if "custoLiquido" in item then item["custoLiquido"] else Get(item, "custo_unitario"))
  }

  /** The stock the receiving loop leaves for an item whose barcode no other
      item shares: the stock found before the receipt (0 when the product is
      missing) plus the quantity received, unless the item carries its own;
      its unit cost becomes `custoLiquido`. */
  lemma {:induction false} ReceiveItemsStock(st: Store, f: Faults, items: seq<Fields>, j: nat)
    requires j < |items| && st.connected
    requires Get(items[j], "codigoBarra").Str? && Get(items[j], "codigoBarra").s != ""
    requires forall i :: 0 <= i < |items| && i != j ==> Get(items[i], "codigoBarra") != Get(items[j], "codigoBarra")
    requires Get(items[j], "codigoBarra").s !in f.productWriteFails
    requires StockSound(st.products) && ReceiptOk(items)
    ensures ReceivedStock(FindProduct(st, f, Get(items[j], "codigoBarra")), ReceiveItems(st, f, items).store.products,
                          Get(items[j], "codigoBarra").s, items[j])
    decreases |items|
  {
    if j == 0 {
      ReceiveFirstThenUntouched(st, f, items);
    } else {
      ReceiveRestPre(st, f, items, j);
      ReceiveItemsStock(ReceiveItem(st, f, items[0]).store, f, items[1..], j - 1);
      ReceiveRestStep(st, f, items, j);
    }
  }

  /** The first item's write survives the rest of the loop when no later
      item shares its barcode. */
  lemma ReceiveFirstThenUntouched(st: Store, f: Faults, items: seq<Fields>)
    requires |items| > 0 && st.connected
    requires Get(items[0], "codigoBarra").Str? && Get(items[0], "codigoBarra").s != ""
    requires forall i :: 0 < i < |items| ==> Get(items[i], "codigoBarra") != Get(items[0], "codigoBarra")
    requires Get(items[0], "codigoBarra").s !in f.productWriteFails
    requires StockSound(st.products) && ReceiptOk(items)
    ensures ReceivedStock(FindProduct(st, f, Get(items[0], "codigoBarra")), ReceiveItems(st, f, items).store.products,
                          Get(items[0], "codigoBarra").s, items[0])
  {
    var b := Get(items[0], "codigoBarra").s;
    var first := ReceiveItem(st, f, items[0]);
    var rest := items[1..];
    ReceiveItemKeepsStockSound(st, f, items[0]);
    ReceiveItemWrites(st, f, items[0]);
    assert Untouched(b, rest) by {
      forall i | 0 <= i < |rest| ensures Get(rest[i], "codigoBarra") != Str(b) {
        assert rest[i] == items[i + 1];
      }
    }
    assert ReceiveItems(st, f, items) == ReceiveItems(first.store, f, rest);
  }

  /** The recursive case's obligations: after the first item, the rest of
      the cart still meets the conditions for the item at `j`, and the
      lookup of that item's barcode is unchanged. */
  lemma ReceiveRestPre(st: Store, f: Faults, items: seq<Fields>, j: nat)
    requires 0 < j < |items| && st.connected
    requires Get(items[j], "codigoBarra").Str?
    requires forall i :: 0 <= i < |items| && i != j ==> Get(items[i], "codigoBarra") != Get(items[j], "codigoBarra")
    requires StockSound(st.products) && ReceiptOk(items)
    ensures var first := ReceiveItem(st, f, items[0]);
      && first.raised.None?
      && first.store.connected
      && items[1..][j - 1] == items[j]
      && (forall i :: 0 <= i < |items[1..]| && i != j - 1 ==>
            Get(items[1..][i], "codigoBarra") != Get(items[1..][j - 1], "codigoBarra"))
      && StockSound(first.store.products) && ReceiptOk(items[1..])
      && FindProduct(first.store, f, Get(items[j], "codigoBarra")) == FindProduct(st, f, Get(items[j], "codigoBarra"))
  {
    var b := Get(items[j], "codigoBarra").s;
    var first := ReceiveItem(st, f, items[0]);
    ReceiveItemKeepsStockSound(st, f, items[0]);
    CheckoutProperties.TailKeepsUnshared(items, j);
    assert forall i :: 0 <= i < |items[1..]| ==> items[1..][i] == items[i + 1];
    assert b in first.store.products <==> b in st.products;
  }

  /** The recursive case's conclusion: the first item, having another
      barcode, does not disturb what the rest of the loop writes. */
  lemma ReceiveRestStep(st: Store, f: Faults, items: seq<Fields>, j: nat)
    requires 0 < j < |items|
    requires Get(items[j], "codigoBarra").Str?
    requires ReceiveItem(st, f, items[0]).raised.None?
    requires FindProduct(ReceiveItem(st, f, items[0]).store, f, Get(items[j], "codigoBarra"))
          == FindProduct(st, f, Get(items[j], "codigoBarra"))
    requires ReceivedStock(FindProduct(ReceiveItem(st, f, items[0]).store, f, Get(items[j], "codigoBarra")),
                           ReceiveItems(ReceiveItem(st, f, items[0]).store, f, items[1..]).store.products,
                           Get(items[j], "codigoBarra").s, items[j])
    ensures ReceivedStock(FindProduct(st, f, Get(items[j], "codigoBarra")), ReceiveItems(st, f, items).store.products,
                          Get(items[j], "codigoBarra").s, items[j])
  {
    assert ReceiveItems(st, f, items) == ReceiveItems(ReceiveItem(st, f, items[0]).store, f, items[1..]);
  }

  // ---------------------------------------------------------------------
  // Product registration: which audit action is reported
  // ---------------------------------------------------------------------

  /** As written, every registration whose save and follow-up read go
      through is reported as an update, whether or not the barcode was
      stored before. */
  lemma RegisterAsWrittenAlwaysReportsUpdate(st: Store, f: Faults, actor: Value, data: Fields, b: string)
    requires st.connected && b != "" && b !in f.productWriteFails && b !in f.productLookupFails
    requires Get(data, "codigoBarra") == Str(b) && Truthy(Get(data, "nome"))
    ensures RegisterProductAsWritten(st, f, actor, data).1 == Registered("Atualização")
  {
    var payload := data["cadastrado_por" := actor];
    assert Get(payload, "codigoBarra") == Str(b);
    var saved := SaveOrUpdateProduct(st, f, payload);
    assert saved.result.Saved?;
    assert "last_updated" in saved.store.products[b];
    assert Exists(saved.store, f, Str(b));
  }

  /** The input that shows it: registering barcode "789" in an empty store. */
  lemma NewProductReportedAsUpdate()
    ensures var st := Store(true, map[], map[], map[], []);
      var data := map["codigoBarra" := Str("789"), "nome" := Str("Café")];
      && RegisterProductAsWritten(st, NoFaults, Str("OP001"), data).1 == Registered("Atualização")
      && RegisterProduct(st, NoFaults, Str("OP001"), data).1 == Registered("Cadastro")
  {
    var st := Store(true, map[], map[], map[], []);
    var data := map["codigoBarra" := Str("789"), "nome" := Str("Café")];
    assert Get(data, "codigoBarra") == Str("789");
    RegisterAsWrittenAlwaysReportsUpdate(st, NoFaults, Str("OP001"), data, "789");
  }
}
